=== FILE: README.md ===
# Lecture-schedule reconciliation, modelled in Dafny

This project models the course-dashboard logic that keeps a course's lecture
schedule consistent. The schedule document holds three things:

- a week-by-day grid (`lectures`): a list of records, each with a `week`
  number and a sparse map from weekday name to that day's content;
- an optional flat list of lectures (`lecture_sequence`);
- the configured class days (`class_days`).

The model covers four parts of `dashboard/app.py`:

- **Sequence builder** (`SequenceBuilder`). A non-empty stored sequence
  wins. Otherwise the grid is flattened week by week, with each week's
  days in class-day order (Monday to Sunday when no class day is named).
  The schedule page writes the derived sequence back (`Materialize`).
- **Sequence editors** (`LectureSequence`, on top of `ListOps`). Add
  lecture, add material, edit, delete, move up/down and delete material.
  Each one rebuilds the sequence, applies one index-checked change and
  stores the result. `ListOps` is the shared update/delete/move-by-index
  pattern that home modules, assignments and textbooks also use.
- **Settings update** (`ClassDayReconciler`, `Holidays`). It stores the
  new class days and holidays. With automatic management on, it repairs
  the grid: dropped days are deleted and their contents are dealt out
  round robin over the added days, or, when nothing was dropped, added
  days get "TBD" placeholders.
- **Bulk grid operations** (`BulkOperations`, `WeekOrder`). Cleanup of
  unconfigured days, filling in missing days, and generating weeks
  `1..N` followed by a stable sort by week number.

Modules: `Outcomes` (`Option`, `Result`, error kinds), `CourseData` (the
document), `ListOps`, `SequenceBuilder`, `LectureSequence`, `WeekOrder`,
`BulkOperations`, `Holidays`, `ClassDayReconciler`.

Modelling choices:

- The document is an immutable value. Every route becomes a pure function
  from the old document (plus the form fields) to the new document, with
  the counts its messages report.
- The `lectures` key can be absent, which is `None`. This matters because
  the settings repair needs the key, and week generation creates it only
  when it adds a week.
- A day's value is `Blank` (null or an empty mapping, both falsy in
  Python) or `Content` with optional `topic` and `materials`.
- A stored empty `lecture_sequence` is falsy, so the builder ignores it.
- Python set iteration order is not fixed. The order in which dropped and
  added days are visited is therefore an explicit parameter
  (`removedOrder`, `addedOrder`) that must list the set, each member once.

Two behaviours of the code follow from this and are proved:

- Deleting the only lecture stores an empty list. The builder ignores
  that list and derives the sequence from the grid again, so the deleted
  lecture comes back when it came from the grid
  (`DeleteSoleLectureFallsBackToGrid`).
- When two dropped days of one week are dealt onto one added day, both
  count as redistributed, but the second overwrites the first
  (`RedistributionOverwrites`).

## Model

| member | source | states |
|---|---|---|
| SequenceBuilder.BuildSequence | dashboard/app.py:36-55 | A non-empty stored sequence is returned unchanged. Otherwise the result has one entry per truthy (week, day) slot, and an absent or empty grid gives the empty sequence. |
| SequenceBuilder.DayOrder | dashboard/app.py:41-44 | The visiting order is the non-empty class-day names in configured order. When none is named, it is Monday to Sunday. It is never empty and holds no empty name. |
| SequenceBuilder.NamedDays | dashboard/app.py:42 | The kept names are exactly the non-empty configured day names. |
| SequenceBuilder.NamedDaysAppend | dashboard/app.py:42 | Names are kept one class day at a time, so they appear in the order the class days are configured. |
| SequenceBuilder.FlattenPosition | dashboard/app.py:46-53 | The entry for the truthy slot (week i, day j) is at the position equal to the number of truthy slots before it, and it carries that day's topic (default "TBD") and materials (default empty). |
| SequenceBuilder.SlotsOrdered | dashboard/app.py:47-53 | Slots earlier in week-then-day order get strictly smaller positions, so the entries appear in nested loop order with no slot sharing a position. |
| SequenceBuilder.FlattenAppend | dashboard/app.py:47-53 | Flattening two grids in a row gives the concatenation of their flattenings. |
| SequenceBuilder.FlattenDropEmpty | dashboard/app.py:47-53 | A record with no days adds nothing to the flattened sequence. |
| SequenceBuilder.DerivationOrderExample | dashboard/app.py:41-53 | With class days Tuesday then Thursday, a week holding both (whatever the map's key order) gives Tuesday's lecture first and Thursday's second. |
| SequenceBuilder.Materialize | dashboard/app.py:151-156 | Writing the derived sequence back does not change what the builder returns and touches no other field. With a grid and no stored sequence, a non-empty derived sequence leaves the document in stored mode. A document already in stored mode, or without a grid, is left exactly as it was. |
| SequenceBuilder.MaterializeIdempotent | dashboard/app.py:151-153 | Opening the schedule page a second time writes nothing new. |
| SequenceBuilder.PersistRoundTrip | dashboard/app.py:37-39 | Storing the built sequence and building again returns the same sequence. |
| LectureSequence.AddLecture | dashboard/app.py:168-173 | The new sequence is the old one plus one entry with the given topic and no materials, and it is stored as the flat sequence. Nothing else changes. |
| LectureSequence.AddMaterial | dashboard/app.py:188-196 | With a valid index, only that lecture changes, gaining one `{name, url}` at the end of its materials, and the new sequence is stored. With an invalid index the document is left exactly as it was. |
| LectureSequence.EditLecture | dashboard/app.py:1018-1026 | It succeeds exactly when the index is present and in range. The addressed entry is overwritten, every other entry is kept, and the new sequence is stored. Otherwise it reports not-found. |
| LectureSequence.DeleteLecture | dashboard/app.py:926-933 | It succeeds exactly when the index is in range. The stored sequence is one shorter, keeps the order of the others, and is what the builder returns when non-empty. |
| LectureSequence.DeleteSoleLectureFallsBackToGrid | dashboard/app.py:926-929 | After deleting the only lecture, the builder returns the flattened grid. If nothing was stored before, the deleted lecture reappears. |
| LectureSequence.MoveLecture | dashboard/app.py:943-954 | It succeeds exactly when the index is in range. The result is a permutation of the same length: the entry swaps with its neighbour on a legal up or down move, and is unchanged on a move past either end or with another direction. The sequence is stored in every successful case, including a move that changes nothing. |
| LectureSequence.DeleteMaterial | dashboard/app.py:1040-1051 | A missing or out-of-range lecture index gives not-found. A bad material index gives material-not-found. Otherwise exactly that material is removed from that lecture, every other entry is kept, and the new sequence is stored. |
| ListOps.UpdateAt | dashboard/app.py:244-256 | It succeeds exactly for an index in range, replaces that element and keeps the rest. |
| ListOps.DeleteAt | dashboard/app.py:265-272 | It succeeds exactly for an index in range. The result is one shorter, keeps the prefix, shifts the suffix down by one, and equals the old multiset minus that element. |
| ListOps.Move | dashboard/app.py:282-292 | It succeeds exactly for an index in range and preserves the multiset. It swaps with the neighbour on "up" above 0 or "down" below the end, and is otherwise unchanged. |
| ListOps.MoveUpThenDown | dashboard/app.py:287-290 | Moving an element up and then back down restores the list. |
| ListOps.DeleteAtThenReinsert | dashboard/app.py:265-266 | Putting the deleted element back at its index restores the list. |
| WeekOrder.SortByWeek | dashboard/app.py:912-913 | The result is a permutation of the records, of the same length, ordered by week number. |
| WeekOrder.SortByWeekStable | dashboard/app.py:912-913 | Records with the same week number keep their relative order, as Python's stable sort does. |
| WeekOrder.SortSortedIsIdentity | dashboard/app.py:912-913 | Sorting an already ordered grid changes nothing. |
| BulkOperations.RestrictWeek | dashboard/app.py:825-831 | The week keeps exactly its configured days, with their contents. The number of dropped days is the number of its days outside the configuration. |
| BulkOperations.CleanGrid | dashboard/app.py:822-837 | Afterwards every day is configured and no week is empty. Every week that kept a day survives, restricted. Every surviving week comes from an input week. The days removed are counted exactly. |
| BulkOperations.CleanGridAppend | dashboard/app.py:822-837 | Records are cleaned one at a time: cleaning two grids in a row is cleaning each and concatenating, so survivors keep their stored order. |
| BulkOperations.Cleanup | dashboard/app.py:814-837 | It fails exactly when no class day is configured. Otherwise only the grid changes, the grid fits the configuration with no empty week, and the count is zero exactly when nothing was outside the configuration. |
| BulkOperations.CleanupKeepsLectureOrder | dashboard/app.py:814-837 | For every day order, the cleaned grid flattens to the same lectures, in the same order, as the old grid with each record cut down to the configured days. |
| BulkOperations.CleanupIdempotent | dashboard/app.py:818-837 | A second cleanup removes nothing and reports zero. |
| BulkOperations.FillWeek | dashboard/app.py:865-873 | The week's days become its old days plus the configured ones. Old contents are kept, new days hold the TBD placeholder, and the day count grows by the number of missing days. |
| BulkOperations.FillMissingDays | dashboard/app.py:855-873 | It fails exactly when no class day is configured. Otherwise every week is filled in place, the number of days grows by the reported count, and the count is zero exactly when no day was missing. |
| BulkOperations.FillMissingDaysIdempotent | dashboard/app.py:859-873 | A second fill adds nothing and reports zero. |
| BulkOperations.MissingWeeks | dashboard/app.py:896-909 | Exactly one fresh placeholder week is created for each number of the range that is absent, and no other week. |
| BulkOperations.GenerateGrid | dashboard/app.py:889-913 | Week numbers become the old ones plus `1..N`. The grid is sorted and keeps every old record. Records sharing an old week number keep their relative order. Every new record is a placeholder week for a number in `1..N` that was absent, and the count is the number of such gaps. |
| BulkOperations.GenerateWeeks | dashboard/app.py:880-913 | The range ends at the given `max_week`, or at 16 when none is given. It fails exactly when no class day is listed. Otherwise only the grid changes, as described for GenerateGrid, and an absent grid stays absent exactly when nothing is created. Records sharing an old week number keep their relative order. |
| BulkOperations.AppendSorted | dashboard/app.py:905-913 | The result is sorted and holds the old records plus the new ones. For every week number, its records are the old ones followed by the new ones, in their orders. |
| WeekOrder.WithNumberAppend | dashboard/app.py:912-913 | The records of one week number in a concatenation are those of the first part followed by those of the second. |
| BulkOperations.GenerateWeeksIdempotent | dashboard/app.py:896-913 | A second generation up to the same week creates nothing and leaves the document unchanged. |
| ClassDayReconciler.ParseClassDays | dashboard/app.py:685-697 | A (day, time) pair is kept exactly when both are non-empty, up to the shorter of the two lists. |
| ClassDayReconciler.ParseClassDaysAppend | dashboard/app.py:685-697 | Pairs are taken position by position, so the class days keep the order of the form fields. |
| ClassDayReconciler.CaptureWeekCount | dashboard/app.py:717-725 | One content is captured per dropped day that a week holds. |
| ClassDayReconciler.RemoveDays | dashboard/app.py:716-725 | Every record stays in place with its number and loses exactly the dropped days. No record keeps one, and every capture carries the number of an existing record. |
| ClassDayReconciler.RemoveDaysCaptures | dashboard/app.py:716-725 | The captures are exactly the (week number, content) pairs of the dropped days the grid held. |
| ClassDayReconciler.RemoveDaysCount | dashboard/app.py:716-725 | The number of captures equals the number of (week, dropped day) pairs in the grid. |
| ClassDayReconciler.AssignDay | dashboard/app.py:746-760 | The content is put under the target day of the first record with that week number. When no record has it, a new record is appended, and every other record is untouched. |
| ClassDayReconciler.Redistribute | dashboard/app.py:738-760 | The redistributed count equals the number of captures. |
| ClassDayReconciler.RedistributeNumbers | dashboard/app.py:741-760 | The week numbers become the old ones plus those of the captures, and no empty record is created. |
| ClassDayReconciler.RedistributeExtends | dashboard/app.py:741-760 | Every record keeps its position, number and days, and no day outside the added days changes. Records appended past the old end are for captured weeks the grid lacked, and they hold added days only. |
| ClassDayReconciler.RedistributeLands | dashboard/app.py:746-760 | Capture `i` lands under added day `(n + i) mod k` (k added days, counter starting at `n`) in the first record of its week. Its content stays there unless a later capture takes the same week and day. |
| ClassDayReconciler.RedistributeSources | dashboard/app.py:741-760 | Every day of the result is either untouched, with the same record and content, or holds the content of a capture, in a record with that capture's week number. |
| ClassDayReconciler.RedistributeUnwritten | dashboard/app.py:746-760 | A day of an existing record that no capture of its week targets keeps its content. |
| ClassDayReconciler.RedistributeWritesOnlyTargets | dashboard/app.py:741-760 | Only round-robin slots are written: a slot that is not a capture's target day in the first record of the capture's week keeps its content, and a day absent there stays absent. |
| ClassDayReconciler.AppendedOncePerWeek | dashboard/app.py:752-760 | When only target slots are written and no record is empty, each appended record is the first of its week, so no two appended records share a week number. |
| ClassDayReconciler.RedistributeAvoids | dashboard/app.py:741-760 | Dealing captures onto added days never brings a dropped day back. |
| ClassDayReconciler.RedistributionOverwrites | dashboard/app.py:746-751 | Two captures of one week dealt onto a single added day are both counted, but only the second content survives. |
| ClassDayReconciler.AddPlaceholders | dashboard/app.py:766-785 | Only the first record of each week number gains a placeholder for each added day it lacks. Other records are unchanged. |
| ClassDayReconciler.DropDays | dashboard/app.py:712-760 | No dropped day remains, no week is empty and no new week number appears. The records that keep a day come first in stored order, with their numbers and all other contents. Appended records are new weeks holding added days only. The removed count is the number of dropped (week, day) pairs, and all of them are redistributed exactly when days were added. With days added, the i-th deleted (week, content) pair, in deletion order, lands under added day `i mod k` of the iteration order in the first record of its week. It keeps that slot unless a later pair takes it. Every added day holds either the content the surviving record had there or a deleted pair of its own week. No other slot is written: a day that is not some pair's target in the first record of its week is as it was, or stays absent. Appended records carry pairwise distinct week numbers. With no day added, the grid is the old one minus the dropped days and emptied records. |
| ClassDayReconciler.MondayMovesToTuesday | dashboard/app.py:712-760 | When Monday is replaced by Tuesday, week 1's Monday content ends up under Tuesday in week 1. |
| ClassDayReconciler.OnlyTargetDayWritten | dashboard/app.py:712-760 | When Monday is dropped and Tuesday and Wednesday are added, a week holding Monday and Friday gets Tuesday only, not Wednesday. |
| ClassDayReconciler.KeptAfterRemoval | dashboard/app.py:712-731 | Once dropped days are deleted and emptied records dropped, no record holds a dropped day and no week number is new. |
| ClassDayReconciler.KeepsOtherDaysAfterDrop | dashboard/app.py:712-760 | In a grid repaired after a drop, every day outside the dropped and added ones is still held, with its content, by a record with the same week number. |
| ClassDayReconciler.ReconcileLectures | dashboard/app.py:710-785 | Dropped days take precedence over added days and give the repair described for DropDays, including the frame on other days, stored order, the round-robin landing, the limit to target slots and the source of every added day's content. Placeholders are added only when nothing was dropped, and nothing changes when neither set has members. |
| ClassDayReconciler.RepairGrid | dashboard/app.py:710-785 | The grid is repaired only with automatic management on, a grid present and some day dropped or added; otherwise grid and counts are unchanged. With a dropped day, the repair is the one described for DropDays, including the frame, the round-robin landing, the limit to target slots and the source of every added day's content. With days only added, the first record of each week number is filled with placeholders and the day total grows by their count. |
| ClassDayReconciler.UpdateSettings | dashboard/app.py:680-797 | The semester dates, parsed class days and normalised holidays are stored, and the flat sequence is never touched. If the set of day names is unchanged, management is off or there is no grid, then the grid and counts are unchanged. |
| ClassDayReconciler.UpdateSettingsDropsRemovedDays | dashboard/app.py:712-760 | When a day is dropped under automatic management, no week keeps a dropped day and no week is empty or newly numbered. Every other day stays with its content and week number, and surviving records keep stored order. Every deleted day is counted, and all are redistributed exactly when a day was added. Each deleted pair lands under its round-robin added day in the first record of its week. Every added day holds either its old content or a deleted pair of its own week. No slot other than a target is written, and appended records have distinct week numbers. |
| ClassDayReconciler.UpdateSettingsFillsAddedDays | dashboard/app.py:766-785 | When days are only added under automatic management, the first record of each week number gets placeholders for the added days, and the day total grows by the placeholder count. |
| Holidays.Strip | dashboard/app.py:791 | The result is the infix of the text that starts where leading whitespace ends, with no whitespace at either end. Everything cut off before and after it is whitespace. It is empty exactly when the text is all whitespace. |
| Holidays.StripIdempotent | dashboard/app.py:791 | Stripping twice is stripping once. |
| Holidays.SplitLines | dashboard/app.py:795 | The pieces contain no newline, and joining them with newlines gives back the text. |
| Holidays.StripNonBlank | dashboard/app.py:791 | At most one item is kept per input item, and the result is empty exactly when every input item is blank. |
| Holidays.StripNonBlankClean | dashboard/app.py:791 | No kept item is empty or padded with whitespace. |
| Holidays.StripNonBlankItems | dashboard/app.py:791 | The kept items are exactly the stripped non-blank input items. |
| Holidays.HolidaysFromText | dashboard/app.py:793-795 | The dates are exactly the stripped non-blank lines of the stripped text. None contains a newline, and the list is empty exactly when the text is blank. |
| Holidays.NormalizeHolidays | dashboard/app.py:791-795 | The list form wins when it has a non-blank item; otherwise the text form is used. Items are never empty or padded, and the result is empty exactly when both inputs are blank. |
| CourseData.DropEmptyWeeks | dashboard/app.py:727-731 | Exactly the weeks that hold a day survive, none of them empty, and the total number of days is unchanged. |
| CourseData.DropEmptyWeeksAppend | dashboard/app.py:727-731 | Records are filtered one at a time, so the survivors keep their stored order. |
| CourseData.DropEmptyWeeksIndex | dashboard/app.py:727-731 | A record holding a day survives, at the position counting the survivors before it. |

## Left out

- Web plumbing is not modelled: Flask routing, request parsing, flash messages, redirects, JSON replies, cookie authentication and template rendering.
- YAML loading and saving are not modelled; the document is a value.
- File uploads, file listing and deletion, and cover and photo uploads are not modelled. They depend on the file system, the clock and `secure_filename`.
- Message strings are not modelled; only the counts behind them are. The placeholder message prints the number of week numbers rather than the placeholder count.
- The set iteration order of dropped and added days is a parameter. No property fixes that order. The properties that name a target day (RedistributeLands, DropDays and the members built on it) hold for every order.
- Aliasing is not modelled. The builder returns the stored list itself, and derived entries share their materials lists with the grid, so an in-place edit can reach the grid. The model copies instead.
- A weekday key literally named `week` collides with the record's `week` field in the source. The model keeps the two apart.
- `LectureSequence.AddMaterial`: a stored entry with no `materials` key is read as having an empty list. So the source's "create the list, then append" reads here as a plain append.
- `LectureSequence.DeleteMaterial`: a missing material index makes the source raise a `TypeError` on comparison with `None`. The model takes the index as an integer.
- `LectureSequence.EditLecture`: the index, topic and materials arrive as JSON in the source, and values of the wrong type are not modelled. A missing topic would be stored as null.
- `BulkOperations.GenerateWeeks`: a non-integer `max_week` and week records without a `week` key (both errors in the source) are not modelled. An absent `max_week` is passed as `None` and means 16.
- The CRUD routes for people, textbooks, assignments, home modules, configuration and additional events are not modelled one by one. Their index-checked update, delete and move steps are `ListOps`; their adds are list appends with no invariant to prove.
- A document whose `lectures` value is null rather than a list is not modelled. The source fails on it.
- `CourseData.ToEntry`: a `topic` or `materials` key present with a null value reads as absent, so the builder gives "TBD" or an empty list. The source copies the null, and a later material add on that entry fails.

=== FILE: bulk_operations.dfy ===
/** The bulk repairs of the lecture grid: removing days that are no longer
    configured, filling in configured days a week lacks, and generating
    placeholder weeks up to a given number. */
module BulkOperations {
  import opened Outcomes
  import opened CourseData
  import opened WeekOrder
  import SequenceBuilder

  /** The repaired schedule and the number the handler reports. */
  datatype Changed = Changed(schedule: Schedule, count: nat)

  /** The number of weeks generated when the request names no maximum. */
  const DefaultMaxWeek: int := 16

  lemma CardSplit(a: set<string>, k: set<string>)
    ensures |a| == |a * k| + |a - k|
  {
    assert a == (a * k) + (a - k);
    assert (a * k) !! (a - k);
  }

  lemma EmptyDifference(a: set<string>, b: set<string>)
    ensures |a - b| == 0 <==> a <= b
  {
    if !(a <= b) {
      var x :| x in a && x !in b;
      assert x in a - b;
    }
  }

  // ---------------------------------------------------------------- cleanup

  /** Week `w` keeping only the days in `keep`. */
  function RestrictWeek(w: Week, keep: set<string>): (r: Week)
    ensures r.week == w.week && r.days.Keys == w.days.Keys * keep
    ensures forall d :: d in r.days ==> r.days[d] == w.days[d]
    ensures |r.days| + |w.days.Keys - keep| == |w.days|
  {
    var r := Week(w.week, map d | d in w.days && d in keep :: w.days[d]);
    assert r.days.Keys == w.days.Keys * keep;
    CardSplit(w.days.Keys, keep);
    r
  }

  /** The number of day keys in the grid outside `keep`. */
  function OutsideCount(weeks: seq<Week>, keep: set<string>): (n: nat)
    ensures n == 0 <==> DaysWithin(weeks, keep)
  {
    if weeks == [] then 0
    else
      assert forall w :: w in weeks <==> w == weeks[0] || w in weeks[1..];
      |weeks[0].days.Keys - keep| + OutsideCount(weeks[1..], keep)
  }

  function RestrictAll(weeks: seq<Week>, keep: set<string>): (r: seq<Week>)
    ensures |r| == |weeks|
    ensures forall k :: 0 <= k < |weeks| ==> r[k] == RestrictWeek(weeks[k], keep)
    ensures DaysWithin(r, keep)
    ensures TotalDays(r) + OutsideCount(weeks, keep) == TotalDays(weeks)
  {
    if weeks == [] then []
    else
      var r := [RestrictWeek(weeks[0], keep)] + RestrictAll(weeks[1..], keep);
      assert r[1..] == RestrictAll(weeks[1..], keep);
      r
  }

  /** The grid without the days outside `keep` and without the weeks that
      are then left empty. */
  function CleanGrid(weeks: seq<Week>, keep: set<string>): (r: seq<Week>)
    ensures DaysWithin(r, keep)
    ensures NoEmptyWeek(r)
    ensures forall k :: 0 <= k < |weeks| && weeks[k].days.Keys * keep != {} ==>
      RestrictWeek(weeks[k], keep) in r
    ensures forall w :: w in r ==> exists k :: 0 <= k < |weeks| && w == RestrictWeek(weeks[k], keep)
    ensures TotalDays(r) + OutsideCount(weeks, keep) == TotalDays(weeks)
  {
    var kept := DropEmptyWeeks(RestrictAll(weeks, keep));
    CleanGridKeeps(weeks, keep);
    CleanGridOrigins(weeks, keep);
    kept
  }

  /** Every week that keeps a day survives the cleanup, restricted. */
  lemma CleanGridKeeps(weeks: seq<Week>, keep: set<string>)
    ensures forall k :: 0 <= k < |weeks| && weeks[k].days.Keys * keep != {} ==>
      RestrictWeek(weeks[k], keep) in DropEmptyWeeks(RestrictAll(weeks, keep))
  {
    var restricted := RestrictAll(weeks, keep);
    forall k | 0 <= k < |weeks| && weeks[k].days.Keys * keep != {}
      ensures RestrictWeek(weeks[k], keep) in DropEmptyWeeks(restricted)
    {
      assert restricted[k] in restricted;
      assert restricted[k].days.Keys != {};
    }
  }

  /** Every week after the cleanup is the restriction of a week before it. */
  lemma CleanGridOrigins(weeks: seq<Week>, keep: set<string>)
    ensures forall w :: w in DropEmptyWeeks(RestrictAll(weeks, keep)) ==>
      exists k :: 0 <= k < |weeks| && w == RestrictWeek(weeks[k], keep)
  {
    var restricted := RestrictAll(weeks, keep);
    forall w | w in DropEmptyWeeks(restricted)
      ensures exists k :: 0 <= k < |weeks| && w == RestrictWeek(weeks[k], keep)
    {
      var k :| 0 <= k < |restricted| && restricted[k] == w;
    }
  }

  /** `cleanup_lectures`: with no class day configured it fails; otherwise it
      drops every day not configured, then every week left without days, and
      reports how many days it dropped. */
  function Cleanup(s: Schedule): (r: Result<Changed>)
    ensures r.Err? <==> DaySet(s.classDays) == {}
    ensures r.Err? ==> r.error == NoClassDaysConfigured
    ensures r.Ok? ==>
      var after, keep := r.value.schedule, DaySet(s.classDays);
      && after == s.(lectures := after.lectures)
      && (after.lectures.None? <==> s.lectures.None?)
      && DaysWithin(Grid(after), keep)
      && NoEmptyWeek(Grid(after))
      && (forall k :: 0 <= k < |Grid(s)| && Grid(s)[k].days.Keys * keep != {} ==>
            RestrictWeek(Grid(s)[k], keep) in Grid(after))
      && (forall w :: w in Grid(after) ==> exists k :: 0 <= k < |Grid(s)| && w == RestrictWeek(Grid(s)[k], keep))
      && TotalDays(Grid(after)) + r.value.count == TotalDays(Grid(s))
      && (r.value.count == 0 <==> DaysWithin(Grid(s), keep))
  {
    var keep := DaySet(s.classDays);
    if keep == {} then Err(NoClassDaysConfigured)
    else
      match s.lectures
      case None => Ok(Changed(s, 0))
      case Some(weeks) =>
        var cleaned := CleanGrid(weeks, keep);
        var after := s.(lectures := Some(cleaned));
        assert Grid(s) == weeks && Grid(after) == cleaned;
        Ok(Changed(after, OutsideCount(weeks, keep)))
  }

  /** Restriction works record by record. */
  lemma RestrictAllAppend(a: seq<Week>, b: seq<Week>, keep: set<string>)
    ensures RestrictAll(a + b, keep) == RestrictAll(a, keep) + RestrictAll(b, keep)
  {
    var l, r := RestrictAll(a + b, keep), RestrictAll(a, keep) + RestrictAll(b, keep);
    forall k | 0 <= k < |l| ensures l[k] == r[k] {
      if k < |a| {
        assert (a + b)[k] == a[k];
      } else {
        assert (a + b)[k] == b[k - |a|];
      }
    }
  }

  /** The cleanup works record by record, so the surviving weeks keep their
      stored order. */
  lemma CleanGridAppend(a: seq<Week>, b: seq<Week>, keep: set<string>)
    ensures CleanGrid(a + b, keep) == CleanGrid(a, keep) + CleanGrid(b, keep)
  {
    RestrictAllAppend(a, b, keep);
    DropEmptyWeeksAppend(RestrictAll(a, keep), RestrictAll(b, keep));
  }

  /** A single record survives, restricted, exactly when it holds a configured day. */
  lemma CleanGridSingle(w: Week, keep: set<string>)
    ensures CleanGrid([w], keep) == if w.days.Keys * keep == {} then [] else [RestrictWeek(w, keep)]
  {
    assert RestrictAll([w], keep) == [RestrictWeek(w, keep)];
    DropEmptyWeeksSingle(RestrictWeek(w, keep));
  }

  /** The cleanup leaves the derived lecture sequence as the stored grid
      restricted to the configured days gives it, in stored week order, for
      any visiting order of the days. */
  lemma CleanupKeepsLectureOrder(s: Schedule, order: seq<string>)
    requires DaySet(s.classDays) != {}
    ensures SequenceBuilder.Flatten(Grid(Cleanup(s).value.schedule), order) ==
      SequenceBuilder.Flatten(RestrictAll(Grid(s), DaySet(s.classDays)), order)
  {
    var keep := DaySet(s.classDays);
    if s.lectures.Some? {
      assert Grid(Cleanup(s).value.schedule) == DropEmptyWeeks(RestrictAll(Grid(s), keep));
      SequenceBuilder.FlattenDropEmpty(RestrictAll(Grid(s), keep), order);
    }
  }

  lemma {:induction false} RestrictAllWithin(weeks: seq<Week>, keep: set<string>)
    requires DaysWithin(weeks, keep)
    ensures RestrictAll(weeks, keep) == weeks
  {
    if weeks != [] {
      assert weeks[0] in weeks;
      assert RestrictWeek(weeks[0], keep).days == weeks[0].days;
      assert DaysWithin(weeks[1..], keep) by {
        assert forall w :: w in weeks[1..] ==> w in weeks;
      }
      RestrictAllWithin(weeks[1..], keep);
      assert weeks == [weeks[0]] + weeks[1..];
    }
  }

  lemma {:induction false} DropEmptyWeeksNone(weeks: seq<Week>)
    requires NoEmptyWeek(weeks)
    ensures DropEmptyWeeks(weeks) == weeks
  {
    if weeks != [] {
      assert NoEmptyWeek(weeks[1..]) by {
        assert forall k :: 0 <= k < |weeks[1..]| ==> weeks[1..][k] == weeks[k + 1];
      }
      DropEmptyWeeksNone(weeks[1..]);
      assert weeks == [weeks[0]] + weeks[1..];
    }
  }

  /** A second cleanup drops nothing and reports zero. */
  lemma CleanupIdempotent(s: Schedule)
    requires DaySet(s.classDays) != {}
    ensures Cleanup(Cleanup(s).value.schedule) == Ok(Changed(Cleanup(s).value.schedule, 0))
  {
    var after := Cleanup(s).value.schedule;
    if after.lectures.Some? {
      var weeks := after.lectures.value;
      RestrictAllWithin(weeks, DaySet(s.classDays));
      DropEmptyWeeksNone(weeks);
      assert CleanGrid(weeks, DaySet(s.classDays)) == weeks;
    }
  }

  // ------------------------------------------------------ fill missing days

  /** `r` is week `w` with every day of `need` present: the days `w` had keep
      their contents and the days it lacked hold the placeholder. */
  predicate FilledFrom(r: Week, w: Week, need: set<string>) {
    && r.week == w.week && r.days.Keys == w.days.Keys + need
    && (forall d :: d in w.days ==> r.days[d] == w.days[d])
    && (forall d :: d in r.days && d !in w.days ==> r.days[d] == Placeholder)
  }

  /** Week `w` with a placeholder for every day of `need` it lacks. */
  function FillWeek(w: Week, need: set<string>): (r: Week)
    ensures FilledFrom(r, w, need)
    ensures |r.days| == |w.days| + |need - w.days.Keys|
  {
    var r := Week(w.week, map d | d in w.days.Keys + need :: if d in w.days then w.days[d] else Placeholder);
    assert r.days.Keys == w.days.Keys + need;
    assert w.days.Keys + need == w.days.Keys + (need - w.days.Keys);
    r
  }

  /** The number of (week, day) pairs with a day of `need` the week lacks. */
  function MissingCount(weeks: seq<Week>, need: set<string>): (n: nat)
    ensures n == 0 <==> forall w :: w in weeks ==> need <= w.days.Keys
  {
    if weeks == [] then 0
    else
      assert forall w :: w in weeks <==> w == weeks[0] || w in weeks[1..];
      EmptyDifference(need, weeks[0].days.Keys);
      |need - weeks[0].days.Keys| + MissingCount(weeks[1..], need)
  }

  function FillAll(weeks: seq<Week>, need: set<string>): (r: seq<Week>)
    ensures |r| == |weeks|
    ensures forall k :: 0 <= k < |weeks| ==> r[k] == FillWeek(weeks[k], need)
    ensures TotalDays(r) == TotalDays(weeks) + MissingCount(weeks, need)
  {
    if weeks == [] then []
    else
      var head, rest := FillWeek(weeks[0], need), FillAll(weeks[1..], need);
      var r := [head] + rest;
      assert r[0] == head && r[1..] == rest;
      assert TotalDays(r) == |head.days| + TotalDays(rest);
      assert MissingCount(weeks, need) == |need - weeks[0].days.Keys| + MissingCount(weeks[1..], need);
      forall k | 1 <= k < |weeks| ensures r[k] == FillWeek(weeks[k], need) {
        assert r[k] == rest[k - 1] && weeks[1..][k - 1] == weeks[k];
      }
      r
  }

  /** `fill_missing_days`: with no class day configured it fails; otherwise
      every week receives a placeholder for each configured day it lacks, and
      the number of placeholders is reported. */
  function FillMissingDays(s: Schedule): (r: Result<Changed>)
    ensures r.Err? <==> DaySet(s.classDays) == {}
    ensures r.Err? ==> r.error == NoClassDaysConfigured
    ensures r.Ok? ==>
      var after, need := r.value.schedule, DaySet(s.classDays);
      && after == s.(lectures := after.lectures)
      && (after.lectures.None? <==> s.lectures.None?)
      && |Grid(after)| == |Grid(s)|
      && (forall k :: 0 <= k < |Grid(s)| ==> Grid(after)[k] == FillWeek(Grid(s)[k], need))
      && TotalDays(Grid(after)) == TotalDays(Grid(s)) + r.value.count
      && (r.value.count == 0 <==> forall w :: w in Grid(s) ==> need <= w.days.Keys)
  {
    var need := DaySet(s.classDays);
    if need == {} then Err(NoClassDaysConfigured)
    else
      match s.lectures
      case None => Ok(Changed(s, 0))
      case Some(weeks) =>
        var filled := FillAll(weeks, need);
        var after := s.(lectures := Some(filled));
        assert Grid(s) == weeks && Grid(after) == filled;
        Ok(Changed(after, MissingCount(weeks, need)))
  }

  /** A second fill adds nothing and reports zero. */
  lemma FillMissingDaysIdempotent(s: Schedule)
    requires DaySet(s.classDays) != {}
    ensures FillMissingDays(FillMissingDays(s).value.schedule) ==
      Ok(Changed(FillMissingDays(s).value.schedule, 0))
  {
    var after := FillMissingDays(s).value.schedule;
    if after.lectures.Some? {
      FillAllComplete(after.lectures.value, DaySet(s.classDays));
    }
  }

  lemma {:induction false} FillAllComplete(weeks: seq<Week>, need: set<string>)
    requires forall w :: w in weeks ==> need <= w.days.Keys
    ensures FillAll(weeks, need) == weeks
  {
    forall k | 0 <= k < |weeks| ensures FillAll(weeks, need)[k] == weeks[k] {
      assert weeks[k] in weeks;
      FillWeekComplete(weeks[k], need);
    }
  }

  lemma FillWeekComplete(w: Week, need: set<string>)
    requires need <= w.days.Keys
    ensures FillWeek(w, need) == w
  {
    assert FillWeek(w, need).days == w.days;
  }

  // ---------------------------------------------------------- generate weeks

  /** A new week numbered `n` with a placeholder for each configured day. */
  function FreshWeek(n: int, names: seq<string>): (w: Week)
    ensures w.week == n && w.days.Keys == Elems(names)
    ensures forall d :: d in w.days ==> w.days[d] == Placeholder
  {
    Week(n, map d | d in names :: Placeholder)
  }

  /** The numbers in `lo..hi` that `existing` lacks. */
  function Gaps(existing: set<int>, lo: int, hi: int): set<int> {
    set n | lo <= n <= hi && n !in existing
  }

  lemma GapsStep(existing: set<int>, lo: int, hi: int)
    requires lo <= hi
    ensures Gaps(existing, lo, hi) == (if lo in existing then {} else {lo}) + Gaps(existing, lo + 1, hi)
    ensures lo !in Gaps(existing, lo + 1, hi)
  {
  }

  /** Fresh weeks for the numbers of `lo..hi` missing from `existing`, ascending. */
  function MissingWeeks(existing: set<int>, lo: int, hi: int, names: seq<string>): (r: seq<Week>)
    decreases hi - lo
    ensures |r| == |Gaps(existing, lo, hi)|
    ensures WeekNumbers(r) == Gaps(existing, lo, hi)
    ensures forall w :: w in r ==> w == FreshWeek(w.week, names)
  {
    if lo > hi then
      assert Gaps(existing, lo, hi) == {};
      []
    else
      var rest := MissingWeeks(existing, lo + 1, hi, names);
      var first := if lo in existing then [] else [FreshWeek(lo, names)];
      GapsStep(existing, lo, hi);
      assert forall w :: w in first + rest <==> w in first || w in rest;
      first + rest
  }

  /** The grid after generating weeks `1..maxWeek` with a placeholder for each
      of `names`, and the number of weeks generated. */
  function GenerateGrid(lectures: Option<seq<Week>>, names: seq<string>, maxWeek: int): (r: (Option<seq<Week>>, nat))
    ensures
      var before, grid, count := lectures.GetOr([]), r.0.GetOr([]), r.1;
      && (r.0.None? <==> lectures.None? && count == 0)
      && (forall n :: n in WeekNumbers(grid) <==> n in WeekNumbers(before) || 1 <= n <= maxWeek)
      && SortedByWeek(grid)
      && multiset(before) <= multiset(grid)
      && (forall w :: w in multiset(grid) - multiset(before) ==>
            w == FreshWeek(w.week, names) && 1 <= w.week <= maxWeek && w.week !in WeekNumbers(before))
      && |grid| == |before| + count
      && count == |Gaps(WeekNumbers(before), 1, maxWeek)|
      && (forall n :: n in WeekNumbers(before) ==> WithNumber(grid, n) == WithNumber(before, n))
  {
    var before := lectures.GetOr([]);
    var newWeeks := MissingWeeks(WeekNumbers(before), 1, maxWeek, names);
    var grown := AppendSorted(lectures, newWeeks);
    GeneratedWeeksAreFresh(before, grown.GetOr([]), names, maxWeek);
    GeneratedNumbers(before, grown.GetOr([]), names, maxWeek);
    GeneratedKeepsOrder(before, grown.GetOr([]), names, maxWeek);
    (grown, |newWeeks|)
  }

  lemma GeneratedWeeksAreFresh(before: seq<Week>, grid: seq<Week>, names: seq<string>, maxWeek: int)
    requires
      var newWeeks := MissingWeeks(WeekNumbers(before), 1, maxWeek, names);
      multiset(grid) == multiset(before) + multiset(newWeeks)
    ensures forall w :: w in multiset(grid) - multiset(before) ==>
      w == FreshWeek(w.week, names) && 1 <= w.week <= maxWeek && w.week !in WeekNumbers(before)
  {
    var gaps := Gaps(WeekNumbers(before), 1, maxWeek);
    var newWeeks := MissingWeeks(WeekNumbers(before), 1, maxWeek, names);
    assert multiset(grid) - multiset(before) == multiset(newWeeks);
    forall w | w in multiset(grid) - multiset(before)
      ensures w == FreshWeek(w.week, names)
      ensures w.week in gaps
    {
      assert w in newWeeks;
    }
  }

  /** Records of a number the grid already had keep their relative order:
      the generated weeks all carry new numbers. */
  lemma GeneratedKeepsOrder(before: seq<Week>, grid: seq<Week>, names: seq<string>, maxWeek: int)
    requires
      var newWeeks := MissingWeeks(WeekNumbers(before), 1, maxWeek, names);
      forall n :: WithNumber(grid, n) == WithNumber(before, n) + WithNumber(newWeeks, n)
    ensures forall n :: n in WeekNumbers(before) ==> WithNumber(grid, n) == WithNumber(before, n)
  {
    var newWeeks := MissingWeeks(WeekNumbers(before), 1, maxWeek, names);
    forall n | n in WeekNumbers(before) ensures WithNumber(grid, n) == WithNumber(before, n) {
      WithNumberAbsent(newWeeks, n);
      assert WithNumber(before, n) + [] == WithNumber(before, n);
    }
  }

  lemma GeneratedNumbers(before: seq<Week>, grid: seq<Week>, names: seq<string>, maxWeek: int)
    requires
      var newWeeks := MissingWeeks(WeekNumbers(before), 1, maxWeek, names);
      WeekNumbers(grid) == WeekNumbers(before) + WeekNumbers(newWeeks)
    ensures forall n :: n in WeekNumbers(grid) <==> n in WeekNumbers(before) || 1 <= n <= maxWeek
  {
    var gaps := Gaps(WeekNumbers(before), 1, maxWeek);
    forall n | 1 <= n <= maxWeek && n !in WeekNumbers(before)
      ensures n in WeekNumbers(grid)
    {
      assert n in gaps;
    }
  }

  /** `generate_weeks`: with no class day configured it fails; otherwise it
      appends a placeholder week for every number from 1 to the requested
      maximum (16 when none is given) that no record carries, sorts the grid by week number and reports how many it made. */
  function GenerateWeeks(s: Schedule, maxWeek: Option<int>): (r: Result<Changed>)
    ensures r.Err? <==> s.classDays == []
    ensures r.Err? ==> r.error == NoClassDaysConfigured
    ensures r.Ok? ==>
      var after, before, top := r.value.schedule, Grid(s), maxWeek.GetOr(DefaultMaxWeek);
      && after == s.(lectures := after.lectures)
      && (after.lectures.None? <==> s.lectures.None? && r.value.count == 0)
      && (forall n :: n in WeekNumbers(Grid(after)) <==> n in WeekNumbers(before) || 1 <= n <= top)
      && SortedByWeek(Grid(after))
      && multiset(before) <= multiset(Grid(after))
      && (forall w :: w in multiset(Grid(after)) - multiset(before) ==>
            w == FreshWeek(w.week, DayNames(s.classDays)) && 1 <= w.week <= top &&
            w.week !in WeekNumbers(before))
      && |Grid(after)| == |before| + r.value.count
      && r.value.count == |Gaps(WeekNumbers(before), 1, top)|
      && (forall n :: n in WeekNumbers(before) ==> WithNumber(Grid(after), n) == WithNumber(before, n))
  {
    if s.classDays == [] then Err(NoClassDaysConfigured)
    else
      var (grid, count) := GenerateGrid(s.lectures, DayNames(s.classDays), maxWeek.GetOr(DefaultMaxWeek));
      Ok(Changed(s.(lectures := grid), count))
  }

  /** The grid with `extra` appended and then sorted by week number; an absent
      grid stays absent when nothing is appended. */
  function AppendSorted(lectures: Option<seq<Week>>, extra: seq<Week>): (r: Option<seq<Week>>)
    ensures r.None? <==> lectures.None? && extra == []
    ensures SortedByWeek(r.GetOr([]))
    ensures |r.GetOr([])| == |lectures.GetOr([])| + |extra|
    ensures multiset(r.GetOr([])) == multiset(lectures.GetOr([])) + multiset(extra)
    ensures WeekNumbers(r.GetOr([])) == WeekNumbers(lectures.GetOr([])) + WeekNumbers(extra)
    ensures forall n :: WithNumber(r.GetOr([]), n) == WithNumber(lectures.GetOr([]), n) + WithNumber(extra, n)
  {
    var grown := if extra == [] then lectures else Some(lectures.GetOr([]) + extra);
    if grown.None? then None
    else
      var sorted := SortByWeek(grown.value);
      assert multiset(sorted) == multiset(lectures.GetOr([]) + extra);
      assert forall w :: w in sorted <==> w in lectures.GetOr([]) || w in extra by {
        assert forall w :: w in sorted <==> w in multiset(sorted);
      }
      forall n ensures WithNumber(sorted, n) == WithNumber(lectures.GetOr([]), n) + WithNumber(extra, n) {
        SortByWeekStable(grown.value, n);
        WithNumberAppend(lectures.GetOr([]), extra, n);
      }
      Some(sorted)
  }

  /** A second generation creates nothing and leaves the grid as it is. */
  lemma GenerateWeeksIdempotent(s: Schedule, maxWeek: Option<int>)
    requires s.classDays != []
    ensures var after := GenerateWeeks(s, maxWeek).value.schedule;
      GenerateWeeks(after, maxWeek) == Ok(Changed(after, 0))
  {
    var after := GenerateWeeks(s, maxWeek).value.schedule;
    assert Gaps(WeekNumbers(Grid(after)), 1, maxWeek.GetOr(DefaultMaxWeek)) == {};
    if after.lectures.Some? {
      SortSortedIsIdentity(after.lectures.value);
    }
  }
}

=== FILE: class_day_reconciler.dfy ===
/** The schedule-settings update: it stores the submitted class days and
    holidays and, when automatic management is requested, repairs the grid
    for the days that were dropped or added. */
module ClassDayReconciler {
  import opened Outcomes
  import opened CourseData
  import opened Holidays
  import BulkOperations

  /** A day content taken off a dropped class day, with its week number. */
  datatype Capture = Capture(week: int, content: DayContent)

  /** The counters behind the informational messages of the update. */
  datatype Report = Report(removed: nat, redistributed: nat, placeholders: nat)

  const NoChange: Report := Report(0, 0, 0)

  /** The submitted settings form. `days` and `times` are the repeated
      day and time fields; `holidayList` and `holidayText` are the two
      holiday inputs. */
  datatype SettingsForm = SettingsForm(
    semesterStart: string,
    semesterEnd: string,
    days: seq<string>,
    times: seq<string>,
    autoManage: bool,
    holidayList: seq<string>,
    holidayText: string)

  /** The class days of the form: day and time fields are paired up to the
      shorter list, and pairs with an empty day or time are dropped. */
  function ParseClassDays(days: seq<string>, times: seq<string>): (r: seq<ClassDay>)
    ensures |r| <= |days| && |r| <= |times|
    ensures forall k :: 0 <= k < |r| ==> r[k].day != "" && r[k].time != ""
    ensures forall i :: 0 <= i < |days| && i < |times| && days[i] != "" && times[i] != "" ==>
      ClassDay(days[i], times[i]) in r
    ensures forall c :: c in r ==> exists i :: 0 <= i < |days| && i < |times| && c == ClassDay(days[i], times[i])
  {
    if days == [] || times == [] then []
    else
      var rest := ParseClassDays(days[1..], times[1..]);
      assert forall i :: 1 <= i < |days| && i < |times| ==> days[1..][i - 1] == days[i] && times[1..][i - 1] == times[i];
      assert forall c :: c in rest ==> exists i :: 0 <= i < |days| && i < |times| && c == ClassDay(days[i], times[i]) by {
        forall c | c in rest ensures exists i :: 0 <= i < |days| && i < |times| && c == ClassDay(days[i], times[i]) {
          var j :| 0 <= j < |days[1..]| && j < |times[1..]| && c == ClassDay(days[1..][j], times[1..][j]);
          assert c == ClassDay(days[j + 1], times[j + 1]);
        }
      }
      if days[0] != "" && times[0] != "" then [ClassDay(days[0], times[0])] + rest else rest
  }

  /** Pairs are parsed one position at a time, so the class days keep the
      order of the form's fields. */
  lemma {:induction false} ParseClassDaysAppend(d1: seq<string>, d2: seq<string>, t1: seq<string>, t2: seq<string>)
    requires |d1| == |t1|
    ensures ParseClassDays(d1 + d2, t1 + t2) == ParseClassDays(d1, t1) + ParseClassDays(d2, t2)
  {
    if d1 == [] {
      assert d1 + d2 == d2 && t1 + t2 == t2;
    } else {
      assert (d1 + d2)[1..] == d1[1..] + d2 && (t1 + t2)[1..] == t1[1..] + t2;
      ParseClassDaysAppend(d1[1..], d2, t1[1..], t2);
    }
  }

  /** One day field and one time field give one class day exactly when both are filled in. */
  lemma ParseClassDaysSingle(d: string, t: string)
    ensures ParseClassDays([d], [t]) == if d != "" && t != "" then [ClassDay(d, t)] else []
  {
    assert [d][1..] == [] && [t][1..] == [];
  }

  // ------------------------------------------------------------ dropped days

  /** The contents of week `w` under the days of `order`, in that order. */
  function CaptureWeek(w: Week, order: seq<string>): (cs: seq<Capture>)
    ensures forall c :: c in cs ==> c.week == w.week
  {
    if order == [] then []
    else
      var rest := CaptureWeek(w, order[1..]);
      if order[0] in w.days then [Capture(w.week, w.days[order[0]])] + rest else rest
  }

  /** The captures of one week are exactly its contents under the days of `order`. */
  lemma {:induction false} CaptureWeekContents(w: Week, order: seq<string>)
    ensures forall c :: c in CaptureWeek(w, order) <==>
      exists d :: d in order && d in w.days && c == Capture(w.week, w.days[d])
  {
    if order != [] {
      CaptureWeekContents(w, order[1..]);
      assert forall d :: d in order <==> d == order[0] || d in order[1..];
    }
  }

  lemma DistinctTail(xs: seq<string>)
    requires xs != [] && Distinct(xs)
    ensures Distinct(xs[1..])
    ensures Elems(xs) == {xs[0]} + Elems(xs[1..])
    ensures xs[0] !in Elems(xs[1..])
  {
    assert forall k :: 0 <= k < |xs| - 1 ==> xs[1..][k] == xs[k + 1];
    assert forall x :: x in xs <==> x == xs[0] || x in xs[1..];
  }

  lemma MeetCons(a: set<string>, o: string, b: set<string>)
    requires o !in b
    ensures |a * ({o} + b)| == |a * b| + (if o in a then 1 else 0)
  {
    if o in a {
      assert a * ({o} + b) == {o} + a * b;
    } else {
      assert a * ({o} + b) == a * b;
    }
  }

  /** With each day listed once, one capture is made per day the week holds. */
  lemma {:induction false} CaptureWeekCount(w: Week, order: seq<string>)
    requires Distinct(order)
    ensures |CaptureWeek(w, order)| == |w.days.Keys * Elems(order)|
  {
    if order == [] {
      assert Elems(order) == {};
      assert w.days.Keys * Elems(order) == {};
    } else {
      var o, rest := order[0], order[1..];
      DistinctTail(order);
      CaptureWeekCount(w, rest);
      MeetCons(w.days.Keys, o, Elems(rest));
    }
  }

  /** The number of (week, day) pairs of the grid whose day is in `ds`. */
  function SharedCount(weeks: seq<Week>, ds: set<string>): nat {
    if weeks == [] then 0 else |weeks[0].days.Keys * ds| + SharedCount(weeks[1..], ds)
  }

  /** The records of `weeks`, in place, with the days in `ds` deleted. */
  function WithoutDays(weeks: seq<Week>, ds: set<string>): (r: seq<Week>)
    ensures |r| == |weeks|
    ensures forall k :: 0 <= k < |weeks| ==> r[k] == Week(weeks[k].week, weeks[k].days - ds)
  {
    seq(|weeks|, k requires 0 <= k < |weeks| => Week(weeks[k].week, weeks[k].days - ds))
  }

  /** The contents of the days of `order`, week after week, each week's in
      `order` order. */
  function CaptureAll(weeks: seq<Week>, order: seq<string>): (cs: seq<Capture>)
    ensures forall c :: c in cs ==> c.week in WeekNumbers(weeks)
  {
    if weeks == [] then []
    else
      assert weeks[0] in weeks;
      assert forall v :: v in weeks[1..] ==> v in weeks;
      CaptureWeek(weeks[0], order) + CaptureAll(weeks[1..], order)
  }

  /** Deletes the days of `order` from every week, capturing each deleted
      content in week-then-`order` order. */
  function RemoveDays(weeks: seq<Week>, order: seq<string>): (r: (seq<Week>, seq<Capture>))
    ensures |r.0| == |weeks|
    ensures forall k :: 0 <= k < |weeks| ==> r.0[k] == Week(weeks[k].week, weeks[k].days - Elems(order))
    ensures Avoids(r.0, Elems(order))
    ensures forall c :: c in r.1 ==> c.week in WeekNumbers(weeks)
  {
    var stripped := WithoutDays(weeks, Elems(order));
    assert Avoids(stripped, Elems(order)) by {
      forall v | v in stripped ensures v.days.Keys !! Elems(order) {
        var k :| 0 <= k < |stripped| && stripped[k] == v;
      }
    }
    (stripped, CaptureAll(weeks, order))
  }

  /** `c` is the content of a day of `ds` held by a record of `weeks`,
      paired with that record's number. */
  predicate DeletedFrom(weeks: seq<Week>, ds: set<string>, c: Capture) {
    exists k, d :: 0 <= k < |weeks| && d in ds && d in weeks[k].days &&
      c == Capture(weeks[k].week, weeks[k].days[d])
  }

  lemma DeletedFromCons(weeks: seq<Week>, ds: set<string>, c: Capture)
    requires weeks != []
    ensures DeletedFrom(weeks, ds, c) <==>
      (exists d :: d in ds && d in weeks[0].days && c == Capture(weeks[0].week, weeks[0].days[d]))
      || DeletedFrom(weeks[1..], ds, c)
  {
    if DeletedFrom(weeks, ds, c) {
      var k, d :| 0 <= k < |weeks| && d in ds && d in weeks[k].days &&
        c == Capture(weeks[k].week, weeks[k].days[d]);
      if k > 0 {
        assert weeks[1..][k - 1] == weeks[k];
      }
    }
    if DeletedFrom(weeks[1..], ds, c) {
      var k, d :| 0 <= k < |weeks[1..]| && d in ds && d in weeks[1..][k].days &&
        c == Capture(weeks[1..][k].week, weeks[1..][k].days[d]);
      assert weeks[1..][k] == weeks[k + 1];
    }
  }

  /** The captures are exactly the deleted `{week, content}` pairs. */
  lemma {:induction false} RemoveDaysCaptures(weeks: seq<Week>, order: seq<string>)
    ensures forall c :: c in RemoveDays(weeks, order).1 <==> DeletedFrom(weeks, Elems(order), c)
  {
    if weeks != [] {
      var head, tail := CaptureWeek(weeks[0], order), RemoveDays(weeks[1..], order).1;
      RemoveDaysCaptures(weeks[1..], order);
      CaptureWeekContents(weeks[0], order);
      assert RemoveDays(weeks, order).1 == head + tail;
      forall c ensures c in head + tail <==> DeletedFrom(weeks, Elems(order), c) {
        DeletedFromCons(weeks, Elems(order), c);
      }
    }
  }

  /** Every deleted (week, day) pair is captured exactly once. */
  lemma {:induction false} RemoveDaysCount(weeks: seq<Week>, order: seq<string>)
    requires Distinct(order)
    ensures |RemoveDays(weeks, order).1| == SharedCount(weeks, Elems(order))
  {
    if weeks != [] {
      CaptureWeekCount(weeks[0], order);
      RemoveDaysCount(weeks[1..], order);
    }
  }

  /** The index of the first record numbered `n`, or `|weeks|` when none is. */
  function FirstIndex(weeks: seq<Week>, n: int): (k: nat)
    ensures k <= |weeks|
    ensures k < |weeks| <==> n in WeekNumbers(weeks)
    ensures k < |weeks| ==> weeks[k].week == n
    ensures forall j :: 0 <= j < k ==> weeks[j].week != n
  {
    if weeks == [] then 0
    else if weeks[0].week == n then 0
    else
      assert forall v :: v in weeks <==> v == weeks[0] || v in weeks[1..];
      assert forall j :: 1 <= j < |weeks| ==> weeks[1..][j - 1] == weeks[j];
      1 + FirstIndex(weeks[1..], n)
  }

  /** Puts `content` under `day` in the first record numbered `week`, or in a
      new record appended for that week when none exists. */
  function AssignDay(weeks: seq<Week>, week: int, day: string, content: DayContent): (r: seq<Week>)
    ensures var k := FirstIndex(weeks, week);
      && |r| == (if k < |weeks| then |weeks| else |weeks| + 1)
      && r[k] == (if k < |weeks| then weeks[k].(days := weeks[k].days[day := content])
                  else Week(week, map[day := content]))
      && forall j :: 0 <= j < |weeks| && j != k ==> r[j] == weeks[j]
  {
    var k := FirstIndex(weeks, week);
    if k < |weeks| then weeks[k := weeks[k].(days := weeks[k].days[day := content])]
    else weeks + [Week(week, map[day := content])]
  }

  /** `after` keeps every record of `before` at its position, with its week
      number and all of its days, and changes none of its days outside `ds`. */
  predicate Extends(before: seq<Week>, after: seq<Week>, ds: set<string>) {
    && |before| <= |after|
    && forall k :: 0 <= k < |before| ==>
         && after[k].week == before[k].week
         && before[k].days.Keys <= after[k].days.Keys
         && after[k].days - ds == before[k].days - ds
  }

  /** The week numbers the captures carry. */
  function CaptureWeeks(caps: seq<Capture>): set<int> {
    set c | c in caps :: c.week
  }

  /** The records `after` adds past the end of `before` carry numbers that
      `before` lacks, taken from the captures, and hold only days in `ds`. */
  predicate AppendsFresh(before: seq<Week>, after: seq<Week>, caps: seq<Capture>, ds: set<string>) {
    forall k :: |before| <= k < |after| ==>
      && after[k].week !in WeekNumbers(before)
      && after[k].week in CaptureWeeks(caps)
      && after[k].days.Keys <= ds
  }

  /** One assignment extends the grid, touching only `day`. */
  lemma AssignDayExtends(weeks: seq<Week>, week: int, day: string, content: DayContent, ds: set<string>)
    requires day in ds
    ensures var r := AssignDay(weeks, week, day, content);
      && Extends(weeks, r, ds)
      && forall k :: |weeks| <= k < |r| ==> r[k] == Week(week, map[day := content]) && week !in WeekNumbers(weeks)
  {
    var r := AssignDay(weeks, week, day, content);
    var k := FirstIndex(weeks, week);
    if k < |weeks| {
      assert r[k].days - ds == weeks[k].days - ds;
    }
  }

  /** Two maps that agree outside `ds`, one keyed only inside `ds`: so is the other. */
  lemma KeysWithin(m: map<string, DayContent>, m': map<string, DayContent>, ds: set<string>)
    requires m - ds == m' - ds && m'.Keys <= ds
    ensures m.Keys <= ds
  {
    assert (m - ds).Keys == m.Keys - ds;
    assert (m' - ds).Keys == m'.Keys - ds == {};
    assert m.Keys - ds == {};
    assert m.Keys == (m.Keys - ds) + (m.Keys * ds);
  }

  lemma ExtendsTrans(a: seq<Week>, b: seq<Week>, c: seq<Week>, ds: set<string>)
    requires Extends(a, b, ds) && Extends(b, c, ds)
    ensures Extends(a, c, ds)
  {
  }

  /** The records past the end of the grid before one assignment and a
      further redistribution are fresh ones for captured weeks. */
  lemma AppendsFreshStep(weeks: seq<Week>, next: seq<Week>, grid: seq<Week>, caps: seq<Capture>, ds: set<string>, day: string)
    requires caps != [] && day in ds
    requires next == AssignDay(weeks, caps[0].week, day, caps[0].content)
    requires Extends(next, grid, ds) && AppendsFresh(next, grid, caps[1..], ds)
    ensures AppendsFresh(weeks, grid, caps, ds)
  {
    AssignDayExtends(weeks, caps[0].week, day, caps[0].content, ds);
    AssignDayNumbers(weeks, caps[0].week, day, caps[0].content);
    assert caps[0] in caps;
    forall k | |weeks| <= k < |grid|
      ensures grid[k].week !in WeekNumbers(weeks)
      ensures grid[k].week in CaptureWeeks(caps)
      ensures grid[k].days.Keys <= ds
    {
      if k < |next| {
        assert next[k] == Week(caps[0].week, map[day := caps[0].content]);
        assert grid[k].days - ds == next[k].days - ds;
        KeysWithin(grid[k].days, next[k].days, ds);
      } else {
        assert grid[k].week in CaptureWeeks(caps[1..]);
        var c :| c in caps[1..] && c.week == grid[k].week;
        assert c in caps;
      }
    }
  }

  /** Assigns each capture, in capture order, to a target day chosen round
      robin from `targets` starting at position `n`; returns the new grid and
      the number of assignments. */
  function Redistribute(weeks: seq<Week>, caps: seq<Capture>, targets: seq<string>, n: nat): (r: (seq<Week>, nat))
    requires targets != []
    ensures r.1 == |caps|
    decreases |caps|
  {
    if caps == [] then (weeks, 0)
    else
      var c := caps[0];
      var day := targets[n % |targets|];
      var next := AssignDay(weeks, c.week, day, c.content);
      var (grid, count) := Redistribute(next, caps[1..], targets, n + 1);
      (grid, count + 1)
  }

  /** Redistribution adds exactly the captured week numbers and empties no week. */
  lemma {:induction false} RedistributeNumbers(weeks: seq<Week>, caps: seq<Capture>, targets: seq<string>, n: nat)
    requires targets != []
    ensures var r := Redistribute(weeks, caps, targets, n).0;
      && WeekNumbers(r) == WeekNumbers(weeks) + CaptureWeeks(caps)
      && (NoEmptyWeek(weeks) ==> NoEmptyWeek(r))
    decreases |caps|
  {
    if caps == [] {
      assert CaptureWeeks(caps) == {};
    } else {
      var c, day := caps[0], TargetOf(targets, n, 0);
      var next := AssignDay(weeks, c.week, day, c.content);
      RedistributeCons(weeks, caps, targets, n);
      AssignDayNumbers(weeks, c.week, day, c.content);
      RedistributeNumbers(next, caps[1..], targets, n + 1);
      assert forall x :: x in caps <==> x == c || x in caps[1..];
      assert CaptureWeeks(caps) == {c.week} + CaptureWeeks(caps[1..]);
    }
  }

  /** Redistribution keeps every record at its position with its number and
      all of its days, changes no day outside the targets, and appends only
      records for captured weeks the grid lacked, holding target days only. */
  lemma {:induction false} RedistributeExtends(weeks: seq<Week>, caps: seq<Capture>, targets: seq<string>, n: nat)
    requires targets != []
    ensures var r := Redistribute(weeks, caps, targets, n).0;
      Extends(weeks, r, Elems(targets)) && AppendsFresh(weeks, r, caps, Elems(targets))
    decreases |caps|
  {
    if caps != [] {
      var day := TargetOf(targets, n, 0);
      var next := AssignDay(weeks, caps[0].week, day, caps[0].content);
      RedistributeCons(weeks, caps, targets, n);
      assert day in Elems(targets);
      AssignDayExtends(weeks, caps[0].week, day, caps[0].content, Elems(targets));
      RedistributeExtends(next, caps[1..], targets, n + 1);
      var grid := Redistribute(next, caps[1..], targets, n + 1).0;
      ExtendsTrans(weeks, next, grid, Elems(targets));
      AppendsFreshStep(weeks, next, grid, caps, Elems(targets), day);
    }
  }

  /** The first capture is assigned first; the rest follow from the next target. */
  lemma RedistributeCons(weeks: seq<Week>, caps: seq<Capture>, targets: seq<string>, n: nat)
    requires targets != [] && caps != []
    ensures Redistribute(weeks, caps, targets, n).0 ==
      Redistribute(AssignDay(weeks, caps[0].week, TargetOf(targets, n, 0), caps[0].content), caps[1..], targets, n + 1).0
  {
    assert TargetOf(targets, n, 0) == targets[n % |targets|];
  }

  /** Every day `after` holds either is held, with the same content, by the
      same record of `before`, or holds the content of one of `caps` in a
      record carrying that capture's week number. */
  predicate ContentsFrom(before: seq<Week>, after: seq<Week>, caps: seq<Capture>) {
    forall j, d :: 0 <= j < |after| && d in after[j].days ==>
      || (j < |before| && d in before[j].days && after[j].days[d] == before[j].days[d])
      || Capture(after[j].week, after[j].days[d]) in caps
  }

  /** One assignment writes nothing but its own content, in a record of its week. */
  lemma AssignDaySources(weeks: seq<Week>, week: int, day: string, content: DayContent)
    ensures ContentsFrom(weeks, AssignDay(weeks, week, day, content), [Capture(week, content)])
  {
    var r := AssignDay(weeks, week, day, content);
    var k := FirstIndex(weeks, week);
    forall j, d | 0 <= j < |r| && d in r[j].days
      ensures || (j < |weeks| && d in weeks[j].days && r[j].days[d] == weeks[j].days[d])
              || Capture(r[j].week, r[j].days[d]) in [Capture(week, content)]
    {
      if j == k && d == day {
        assert r[j].week == week && r[j].days[d] == content;
      }
    }
  }

  lemma ContentsFromStep(weeks: seq<Week>, next: seq<Week>, grid: seq<Week>, c: Capture, rest: seq<Capture>, ds: set<string>)
    requires ContentsFrom(weeks, next, [c]) && ContentsFrom(next, grid, rest) && Extends(next, grid, ds)
    ensures ContentsFrom(weeks, grid, [c] + rest)
  {
    forall j, d | 0 <= j < |grid| && d in grid[j].days
      ensures || (j < |weeks| && d in weeks[j].days && grid[j].days[d] == weeks[j].days[d])
              || Capture(grid[j].week, grid[j].days[d]) in [c] + rest
    {
      if Capture(grid[j].week, grid[j].days[d]) !in rest {
        assert grid[j].week == next[j].week;
      }
    }
  }

  /** Redistribution writes nothing but captured contents, each in a record
      of its capture's week: every day of the result is an untouched day of
      the grid or holds a capture. */
  lemma {:induction false} RedistributeSources(weeks: seq<Week>, caps: seq<Capture>, targets: seq<string>, n: nat)
    requires targets != []
    ensures ContentsFrom(weeks, Redistribute(weeks, caps, targets, n).0, caps)
    decreases |caps|
  {
    if caps != [] {
      var c, day := caps[0], TargetOf(targets, n, 0);
      var next := AssignDay(weeks, c.week, day, c.content);
      var grid := Redistribute(next, caps[1..], targets, n + 1).0;
      RedistributeCons(weeks, caps, targets, n);
      AssignDaySources(weeks, c.week, day, c.content);
      RedistributeSources(next, caps[1..], targets, n + 1);
      RedistributeExtends(next, caps[1..], targets, n + 1);
      ContentsFromStep(weeks, next, grid, c, caps[1..], Elems(targets));
      assert caps == [c] + caps[1..];
    }
  }

  /** The record at `k` is the first one numbered `n`. */
  lemma FirstIndexAt(weeks: seq<Week>, n: int, k: int)
    requires 0 <= k < |weeks| && weeks[k].week == n
    requires forall j :: 0 <= j < k ==> weeks[j].week != n
    ensures FirstIndex(weeks, n) == k
  {
    assert weeks[k] in weeks;
  }

  /** Extending a grid keeps the first record of every number it already had. */
  lemma FirstIndexStable(before: seq<Week>, after: seq<Week>, ds: set<string>, n: int)
    requires Extends(before, after, ds) && n in WeekNumbers(before)
    ensures FirstIndex(after, n) == FirstIndex(before, n)
  {
    FirstIndexAt(after, n, FirstIndex(before, n));
  }

  /** The target day of capture `i` under round robin from position `n`. */
  function TargetOf(targets: seq<string>, n: nat, i: nat): string
    requires targets != []
  {
    targets[(n + i) % |targets|]
  }

  lemma TargetShift(targets: seq<string>, n: nat, j: nat)
    requires targets != []
    ensures TargetOf(targets, n + 1, j) == TargetOf(targets, n, j + 1)
  {
    assert n + 1 + j == n + (j + 1);
  }

  /** No capture after the `i`-th goes to the same week and target day. */
  predicate LastForSlot(caps: seq<Capture>, targets: seq<string>, n: nat, i: nat)
    requires targets != [] && i < |caps|
  {
    forall j :: i < j < |caps| ==>
      caps[j].week != caps[i].week || TargetOf(targets, n, j) != TargetOf(targets, n, i)
  }

  /** A day of an existing record that no capture targets keeps its content. */
  lemma {:induction false} RedistributeUnwritten(weeks: seq<Week>, caps: seq<Capture>, targets: seq<string>, n: nat, k: int, d: string)
    requires targets != [] && 0 <= k < |weeks| && d in weeks[k].days
    requires forall j :: 0 <= j < |caps| ==> caps[j].week != weeks[k].week || TargetOf(targets, n, j) != d
    ensures var r := Redistribute(weeks, caps, targets, n).0;
      k < |r| && d in r[k].days && r[k].days[d] == weeks[k].days[d]
    decreases |caps|
  {
    if caps != [] {
      var c, day := caps[0], TargetOf(targets, n, 0);
      var next := AssignDay(weeks, c.week, day, c.content);
      assert next[k].week == weeks[k].week && d in next[k].days && next[k].days[d] == weeks[k].days[d] by {
        if k == FirstIndex(weeks, c.week) {
          assert c.week == weeks[k].week && day != d;
        }
      }
      forall j | 0 <= j < |caps[1..]|
        ensures caps[1..][j].week != next[k].week || TargetOf(targets, n + 1, j) != d
      {
        assert caps[1..][j] == caps[j + 1];
        TargetShift(targets, n, j);
      }
      RedistributeUnwritten(next, caps[1..], targets, n + 1, k, d);
    }
  }

  /** Slot `(j, d)` of `r` is one a capture writes: `r[j]` is the first
      record of its week and `d` is the round-robin day of some capture of
      that week. */
  predicate Written(r: seq<Week>, caps: seq<Capture>, targets: seq<string>, n: nat, j: int, d: string)
    requires targets != [] && 0 <= j < |r|
  {
    && FirstIndex(r, r[j].week) == j
    && exists i :: 0 <= i < |caps| && caps[i].week == r[j].week && TargetOf(targets, n, i) == d
  }

  /** Every day `after` holds outside the slots the captures write is held,
      with the same content, by the same record of `before`; so an unwritten
      slot that was absent stays absent. */
  predicate WritesOnlyTargets(before: seq<Week>, after: seq<Week>, caps: seq<Capture>, targets: seq<string>, n: nat)
    requires targets != []
  {
    forall j, d :: 0 <= j < |after| && d in after[j].days && !Written(after, caps, targets, n, j, d) ==>
      j < |before| && d in before[j].days && after[j].days[d] == before[j].days[d]
  }

  /** A slot written by one of the later captures is written by the captures. */
  lemma WrittenShift(r: seq<Week>, caps: seq<Capture>, targets: seq<string>, n: nat, j: int, d: string)
    requires targets != [] && caps != [] && 0 <= j < |r|
    ensures Written(r, caps[1..], targets, n + 1, j, d) ==> Written(r, caps, targets, n, j, d)
  {
    if Written(r, caps[1..], targets, n + 1, j, d) {
      var i :| 0 <= i < |caps[1..]| && caps[1..][i].week == r[j].week && TargetOf(targets, n + 1, i) == d;
      TargetShift(targets, n, i);
      assert caps[i + 1] == caps[1..][i];
    }
  }

  /** The first assignment's slot keeps the first record of its week, so the
      first capture writes it. */
  lemma FirstSlotWritten(weeks: seq<Week>, next: seq<Week>, grid: seq<Week>, caps: seq<Capture>, targets: seq<string>, n: nat, ds: set<string>)
    requires targets != [] && caps != []
    requires next == AssignDay(weeks, caps[0].week, TargetOf(targets, n, 0), caps[0].content)
    requires Extends(next, grid, ds)
    ensures var k := FirstIndex(weeks, caps[0].week);
      k < |grid| && Written(grid, caps, targets, n, k, TargetOf(targets, n, 0))
  {
    var k := FirstIndex(weeks, caps[0].week);
    assert grid[k].week == caps[0].week;
    FirstIndexAt(grid, caps[0].week, k);
  }

  /** One assignment followed by a redistribution of the rest writes only
      target slots. */
  lemma WritesOnlyTargetsStep(weeks: seq<Week>, next: seq<Week>, grid: seq<Week>, caps: seq<Capture>, targets: seq<string>, n: nat, ds: set<string>)
    requires targets != [] && caps != []
    requires next == AssignDay(weeks, caps[0].week, TargetOf(targets, n, 0), caps[0].content)
    requires WritesOnlyTargets(next, grid, caps[1..], targets, n + 1) && Extends(next, grid, ds)
    ensures WritesOnlyTargets(weeks, grid, caps, targets, n)
  {
    var k, day := FirstIndex(weeks, caps[0].week), TargetOf(targets, n, 0);
    FirstSlotWritten(weeks, next, grid, caps, targets, n, ds);
    forall j, d | 0 <= j < |grid| && d in grid[j].days && !Written(grid, caps, targets, n, j, d)
      ensures j < |weeks| && d in weeks[j].days && grid[j].days[d] == weeks[j].days[d]
    {
      WrittenShift(grid, caps, targets, n, j, d);
      assert j != k || d != day;
    }
  }

  /** Redistribution writes nothing outside the round-robin slots: every day
      it leaves untargeted is as it was, and an untargeted absent day stays
      absent. */
  lemma {:induction false} RedistributeWritesOnlyTargets(weeks: seq<Week>, caps: seq<Capture>, targets: seq<string>, n: nat)
    requires targets != []
    ensures WritesOnlyTargets(weeks, Redistribute(weeks, caps, targets, n).0, caps, targets, n)
    decreases |caps|
  {
    if caps != [] {
      var next := AssignDay(weeks, caps[0].week, TargetOf(targets, n, 0), caps[0].content);
      var grid := Redistribute(next, caps[1..], targets, n + 1).0;
      RedistributeCons(weeks, caps, targets, n);
      RedistributeWritesOnlyTargets(next, caps[1..], targets, n + 1);
      RedistributeExtends(next, caps[1..], targets, n + 1);
      WritesOnlyTargetsStep(weeks, next, grid, caps, targets, n, Elems(targets));
    }
  }

  /** Records `after` appends past `kept` carry pairwise distinct numbers. */
  predicate AppendedDistinct(kept: seq<Week>, after: seq<Week>) {
    forall i, j :: |kept| <= i < j < |after| ==> after[i].week != after[j].week
  }

  /** When only target slots are written and no record is empty, each
      appended record is the first of its week, so no two share a number. */
  lemma AppendedOncePerWeek(kept: seq<Week>, after: seq<Week>, caps: seq<Capture>, targets: seq<string>, n: nat)
    requires targets != [] && WritesOnlyTargets(kept, after, caps, targets, n) && NoEmptyWeek(after)
    ensures AppendedDistinct(kept, after)
  {
    forall i, j | |kept| <= i < j < |after| ensures after[i].week != after[j].week {
      assert |after[j].days| > 0;
      assert after[j].days.Keys != {};
      var d :| d in after[j].days;
      assert Written(after, caps, targets, n, j, d);
    }
  }

  /** One assignment puts `content` under `day` in the first record of `week`. */
  lemma AssignDayLands(weeks: seq<Week>, week: int, day: string, content: DayContent)
    ensures Landed(AssignDay(weeks, week, day, content), Capture(week, content), day, true)
  {
    var r := AssignDay(weeks, week, day, content);
    var k0 := FirstIndex(weeks, week);
    FirstIndexAt(r, week, if k0 < |weeks| then k0 else |weeks|);
  }

  /** When the first capture is last for its slot, none of the rest targets
      its week and day. */
  lemma LastForSlotHead(caps: seq<Capture>, targets: seq<string>, n: nat)
    requires targets != [] && caps != [] && LastForSlot(caps, targets, n, 0)
    ensures forall j :: 0 <= j < |caps[1..]| ==>
      caps[1..][j].week != caps[0].week || TargetOf(targets, n + 1, j) != TargetOf(targets, n, 0)
  {
    forall j | 0 <= j < |caps[1..]|
      ensures caps[1..][j].week != caps[0].week || TargetOf(targets, n + 1, j) != TargetOf(targets, n, 0)
    {
      assert caps[1..][j] == caps[j + 1];
      TargetShift(targets, n, j);
    }
  }

  /** The first capture lands in the first record of its week under the
      first target day, and stays there unless a later capture takes that slot. */
  lemma LandsFirst(weeks: seq<Week>, caps: seq<Capture>, targets: seq<string>, n: nat)
    requires targets != [] && caps != []
    ensures Landed(Redistribute(weeks, caps, targets, n).0, caps[0], TargetOf(targets, n, 0), LastForSlot(caps, targets, n, 0))
  {
    var c, day := caps[0], TargetOf(targets, n, 0);
    var next := AssignDay(weeks, c.week, day, c.content);
    var r := Redistribute(next, caps[1..], targets, n + 1).0;
    AssignDayLands(weeks, c.week, day, c.content);
    var k := FirstIndex(next, c.week);
    assert day in Elems(targets);
    RedistributeExtends(next, caps[1..], targets, n + 1);
    FirstIndexStable(next, r, Elems(targets), c.week);
    if LastForSlot(caps, targets, n, 0) {
      LastForSlotHead(caps, targets, n);
      RedistributeUnwritten(next, caps[1..], targets, n + 1, k, day);
    }
    RedistributeCons(weeks, caps, targets, n);
  }

  /** Past the first capture, slots are read off the remaining captures one
      position further round the targets. */
  lemma LastForSlotShift(caps: seq<Capture>, targets: seq<string>, n: nat, i: nat)
    requires targets != [] && 0 < i < |caps|
    ensures caps[1..][i - 1] == caps[i] && TargetOf(targets, n + 1, i - 1) == TargetOf(targets, n, i)
    ensures LastForSlot(caps, targets, n, i) ==> LastForSlot(caps[1..], targets, n + 1, i - 1)
  {
    TargetShift(targets, n, i - 1);
    if LastForSlot(caps, targets, n, i) {
      forall j | i - 1 < j < |caps[1..]|
        ensures caps[1..][j].week != caps[1..][i - 1].week ||
          TargetOf(targets, n + 1, j) != TargetOf(targets, n + 1, i - 1)
      {
        assert caps[1..][j] == caps[j + 1];
        TargetShift(targets, n, j);
      }
    }
  }

  /** `c` sits under `day` in the first record of its week in `r`, and, when
      `last` holds, that day still holds `c`'s content. */
  predicate Landed(r: seq<Week>, c: Capture, day: string, last: bool) {
    var k := FirstIndex(r, c.week);
    k < |r| && day in r[k].days && (last ==> r[k].days[day] == c.content)
  }

  /** Every capture lands under its round-robin target day in the first
      record of its week, and its content stays there unless a later capture
      takes the same week and day. */
  lemma {:induction false} RedistributeLands(weeks: seq<Week>, caps: seq<Capture>, targets: seq<string>, n: nat, i: nat)
    requires targets != [] && i < |caps|
    ensures Landed(Redistribute(weeks, caps, targets, n).0, caps[i], TargetOf(targets, n, i), LastForSlot(caps, targets, n, i))
    decreases |caps|, 1
  {
    if i == 0 {
      LandsFirst(weeks, caps, targets, n);
    } else {
      LandsLater(weeks, caps, targets, n, i);
    }
  }

  /** A later capture lands where it lands among the remaining captures. */
  lemma {:induction false} LandsLater(weeks: seq<Week>, caps: seq<Capture>, targets: seq<string>, n: nat, i: nat)
    requires targets != [] && 0 < i < |caps|
    ensures Landed(Redistribute(weeks, caps, targets, n).0, caps[i], TargetOf(targets, n, i), LastForSlot(caps, targets, n, i))
    decreases |caps|, 0
  {
    RedistributeLands(AssignDay(weeks, caps[0].week, TargetOf(targets, n, 0), caps[0].content), caps[1..], targets, n + 1, i - 1);
    LandsLaterStep(weeks, caps, targets, n, i);
  }

  /** Where capture `i` lands after the first assignment is where it lands. */
  lemma LandsLaterStep(weeks: seq<Week>, caps: seq<Capture>, targets: seq<string>, n: nat, i: nat)
    requires targets != [] && 0 < i < |caps|
    requires Landed(Redistribute(AssignDay(weeks, caps[0].week, TargetOf(targets, n, 0), caps[0].content), caps[1..], targets, n + 1).0,
                    caps[1..][i - 1], TargetOf(targets, n + 1, i - 1), LastForSlot(caps[1..], targets, n + 1, i - 1))
    ensures Landed(Redistribute(weeks, caps, targets, n).0, caps[i], TargetOf(targets, n, i), LastForSlot(caps, targets, n, i))
  {
    RedistributeCons(weeks, caps, targets, n);
    LandedShift(Redistribute(weeks, caps, targets, n).0, caps, targets, n, i);
  }

  /** Landing of capture `i - 1` of the remaining captures, one position
      further round the targets, is landing of capture `i`. */
  lemma LandedShift(r: seq<Week>, caps: seq<Capture>, targets: seq<string>, n: nat, i: nat)
    requires targets != [] && 0 < i < |caps|
    requires Landed(r, caps[1..][i - 1], TargetOf(targets, n + 1, i - 1), LastForSlot(caps[1..], targets, n + 1, i - 1))
    ensures Landed(r, caps[i], TargetOf(targets, n, i), LastForSlot(caps, targets, n, i))
  {
    LastForSlotShift(caps, targets, n, i);
  }

  lemma AssignDayNumbers(weeks: seq<Week>, week: int, day: string, content: DayContent)
    ensures WeekNumbers(AssignDay(weeks, week, day, content)) == WeekNumbers(weeks) + {week}
    ensures NoEmptyWeek(weeks) ==> NoEmptyWeek(AssignDay(weeks, week, day, content))
  {
    var r := AssignDay(weeks, week, day, content);
    var k := FirstIndex(weeks, week);
    forall v | v in r ensures v.week in WeekNumbers(weeks) + {week} {
      var j :| 0 <= j < |r| && r[j] == v;
      if j != k { assert weeks[j] in weeks; }
    }
    forall v | v in weeks ensures v.week in WeekNumbers(r) {
      var j :| 0 <= j < |weeks| && weeks[j] == v;
      if j != k { assert r[j] in r; } else { assert r[k] in r; }
    }
    assert r[k] in r;
  }

  lemma AssignDayAvoids(weeks: seq<Week>, week: int, day: string, content: DayContent, ds: set<string>)
    requires Avoids(weeks, ds) && day !in ds
    ensures Avoids(AssignDay(weeks, week, day, content), ds)
  {
    var r := AssignDay(weeks, week, day, content);
    var k := FirstIndex(weeks, week);
    forall v | v in r ensures v.days.Keys !! ds {
      var j :| 0 <= j < |r| && r[j] == v;
      if j != k || k < |weeks| { assert weeks[j] in weeks; }
    }
  }

  /** Redistribution onto days outside `ds` brings none of `ds` back. */
  lemma {:induction false} RedistributeAvoids(weeks: seq<Week>, caps: seq<Capture>, targets: seq<string>, n: nat, ds: set<string>)
    requires targets != []
    requires Avoids(weeks, ds) && Elems(targets) !! ds
    ensures Avoids(Redistribute(weeks, caps, targets, n).0, ds)
    decreases |caps|
  {
    if caps != [] {
      var day := targets[n % |targets|];
      assert day in Elems(targets);
      AssignDayAvoids(weeks, caps[0].week, day, caps[0].content, ds);
      RedistributeAvoids(AssignDay(weeks, caps[0].week, day, caps[0].content), caps[1..], targets, n + 1, ds);
    }
  }

  // -------------------------------------------------------------- added days

  /** The record at `k` is the first one numbered `weeks[k].week`, and that
      number is not in `seen`. */
  predicate FirstOfWeek(weeks: seq<Week>, k: int, seen: set<int>)
    requires 0 <= k < |weeks|
  {
    weeks[k].week !in seen && forall j :: 0 <= j < k ==> weeks[j].week != weeks[k].week
  }

  /** Gives the first record of every week number outside `seen` a placeholder
      for each day of `added` it lacks; returns the grid and the number of
      placeholders. */
  function AddPlaceholders(weeks: seq<Week>, added: set<string>, seen: set<int>): (r: (seq<Week>, nat))
    ensures |r.0| == |weeks|
    ensures forall k :: 0 <= k < |weeks| ==>
      if FirstOfWeek(weeks, k, seen) then r.0[k] == BulkOperations.FillWeek(weeks[k], added)
      else r.0[k] == weeks[k]
  {
    if weeks == [] then ([], 0)
    else
      var w := weeks[0];
      var first := w.week !in seen;
      var seen' := if first then seen + {w.week} else seen;
      var (rest, count) := AddPlaceholders(weeks[1..], added, seen');
      var head := if first then BulkOperations.FillWeek(w, added) else w;
      FirstOfWeekShift(weeks, seen, seen');
      var r := [head] + rest;
      assert r[1..] == rest;
      forall k | 0 <= k < |weeks|
        ensures if FirstOfWeek(weeks, k, seen) then r[k] == BulkOperations.FillWeek(weeks[k], added)
                else r[k] == weeks[k]
      {
        if k > 0 { assert r[k] == rest[k - 1]; }
      }
      (r, count + (if first then |added - w.days.Keys| else 0))
  }

  /** The count is the number of placeholders put into the grid. */
  lemma {:induction false} AddPlaceholdersTotal(weeks: seq<Week>, added: set<string>, seen: set<int>)
    ensures var r := AddPlaceholders(weeks, added, seen);
      TotalDays(r.0) == TotalDays(weeks) + r.1
  {
    if weeks != [] {
      var w := weeks[0];
      var seen' := if w.week !in seen then seen + {w.week} else seen;
      AddPlaceholdersTotal(weeks[1..], added, seen');
      var r := AddPlaceholders(weeks, added, seen).0;
      assert r[1..] == AddPlaceholders(weeks[1..], added, seen').0;
    }
  }

  /** Past the first record, being first of its week in `weeks` under `seen`
      is being first in the tail once the head's number is seen. */
  lemma FirstOfWeekShift(weeks: seq<Week>, seen: set<int>, seen': set<int>)
    requires weeks != []
    requires seen' == if weeks[0].week in seen then seen else seen + {weeks[0].week}
    ensures forall k :: 1 <= k < |weeks| ==>
      (FirstOfWeek(weeks, k, seen) <==> FirstOfWeek(weeks[1..], k - 1, seen'))
  {
    forall k | 1 <= k < |weeks|
      ensures FirstOfWeek(weeks, k, seen) <==> FirstOfWeek(weeks[1..], k - 1, seen')
    {
      assert forall j :: 1 <= j < k ==> weeks[1..][j - 1] == weeks[j];
    }
  }

  // --------------------------------------------------------- reconciliation

  /** The grid after the days in `removed` were deleted, emptied records
      dropped and contents dealt onto the days in `added`: the records that
      still hold a day come first, in stored order, each keeping its number,
      all of its remaining days and every content outside `added`; any record
      past them carries a new number, distinct from the other appended
      records' numbers, and holds only added days. */
  predicate RepairedAfterDrop(before: seq<Week>, after: seq<Week>, removed: set<string>, added: set<string>) {
    var kept := DropEmptyWeeks(WithoutDays(before, removed));
    && Extends(kept, after, added)
    && (forall j :: |kept| <= j < |after| ==>
          after[j].week !in WeekNumbers(kept) && after[j].days.Keys <= added)
    && AppendedDistinct(kept, after)
  }

  /** Every day of `before` outside `ds` is still held, with its content, by
      a record with the same week number. */
  predicate KeepsOtherDays(before: seq<Week>, after: seq<Week>, ds: set<string>) {
    forall k, d :: 0 <= k < |before| && d in before[k].days && d !in ds ==>
      exists j :: 0 <= j < |after| && after[j].week == before[k].week &&
        d in after[j].days && after[j].days[d] == before[k].days[d]
  }

  lemma KeepsOtherDaysAfterDrop(before: seq<Week>, after: seq<Week>, removed: set<string>, added: set<string>)
    requires RepairedAfterDrop(before, after, removed, added)
    ensures KeepsOtherDays(before, after, removed + added)
  {
    var ws := WithoutDays(before, removed);
    var kept := DropEmptyWeeks(ws);
    forall k, d | 0 <= k < |before| && d in before[k].days && d !in removed + added
      ensures exists j ::
        0 <= j < |after| && after[j].week == before[k].week && d in after[j].days && after[j].days[d] == before[k].days[d]
    {
      assert d in ws[k].days && ws[k].days[d] == before[k].days[d];
      DropEmptyWeeksIndex(ws, k);
      var j := |DropEmptyWeeks(ws[..k])|;
      assert kept[j] == ws[k];
      assert after[j].days - added == kept[j].days - added;
      assert d in (kept[j].days - added) && (kept[j].days - added)[d] == before[k].days[d];
      assert (after[j].days - added)[d] == after[j].days[d];
    }
  }

  /** Dealing captures onto the added days leaves a repaired grid. */
  lemma RepairedByRedistribution(weeks: seq<Week>, removed: set<string>, added: set<string>, grid: seq<Week>, caps: seq<Capture>)
    requires Extends(DropEmptyWeeks(WithoutDays(weeks, removed)), grid, added)
    requires AppendsFresh(DropEmptyWeeks(WithoutDays(weeks, removed)), grid, caps, added)
    requires AppendedDistinct(DropEmptyWeeks(WithoutDays(weeks, removed)), grid)
    ensures RepairedAfterDrop(weeks, grid, removed, added)
    ensures KeepsOtherDays(weeks, grid, removed + added)
  {
    KeepsOtherDaysAfterDrop(weeks, grid, removed, added);
  }

  /** With nothing dealt out, the grid without the dropped days and the
      emptied records is a repaired grid. */
  lemma RepairedByDeletion(weeks: seq<Week>, removed: set<string>, added: set<string>)
    ensures RepairedAfterDrop(weeks, DropEmptyWeeks(WithoutDays(weeks, removed)), removed, added)
    ensures KeepsOtherDays(weeks, DropEmptyWeeks(WithoutDays(weeks, removed)), removed + added)
    ensures DealtFromDeleted(weeks, DropEmptyWeeks(WithoutDays(weeks, removed)), removed, added)
  {
    KeepsOtherDaysAfterDrop(weeks, DropEmptyWeeks(WithoutDays(weeks, removed)), removed, added);
  }

  /** Every added day of `after` either keeps what the surviving record held
      there or holds a deleted `{week, content}` pair of `before` in a record
      of that week. */
  predicate DealtFromDeleted(before: seq<Week>, after: seq<Week>, removed: set<string>, added: set<string>) {
    var kept := DropEmptyWeeks(WithoutDays(before, removed));
    forall j, d :: 0 <= j < |after| && d in added && d in after[j].days ==>
      || (j < |kept| && d in kept[j].days && after[j].days[d] == kept[j].days[d])
      || DeletedFrom(before, removed, Capture(after[j].week, after[j].days[d]))
  }

  /** With days added, every deleted `{week, content}` pair, in deletion
      order, lands under its round-robin day of `addedOrder` in the first
      record of its week, and keeps that slot unless a later pair takes it;
      and no other slot of the surviving records changes or appears. */
  predicate DealtRoundRobin(before: seq<Week>, after: seq<Week>, removedOrder: seq<string>, addedOrder: seq<string>) {
    var caps := RemoveDays(before, removedOrder).1;
    var kept := DropEmptyWeeks(WithoutDays(before, Elems(removedOrder)));
    addedOrder != [] ==>
      && (forall i :: 0 <= i < |caps| ==>
            Landed(after, caps[i], TargetOf(addedOrder, 0, i), LastForSlot(caps, addedOrder, 0, i)))
      && WritesOnlyTargets(kept, after, caps, addedOrder, 0)
  }

  /** Every capture lands under its round-robin target from position 0. */
  lemma AllCapturesLand(weeks: seq<Week>, caps: seq<Capture>, targets: seq<string>)
    requires targets != []
    ensures forall i :: 0 <= i < |caps| ==>
      Landed(Redistribute(weeks, caps, targets, 0).0, caps[i], TargetOf(targets, 0, i), LastForSlot(caps, targets, 0, i))
  {
    forall i | 0 <= i < |caps|
      ensures Landed(Redistribute(weeks, caps, targets, 0).0, caps[i], TargetOf(targets, 0, i), LastForSlot(caps, targets, 0, i))
    {
      RedistributeLands(weeks, caps, targets, 0, i);
    }
  }

  /** What redistribution writes onto the surviving records are deleted pairs. */
  lemma DealtFromCaptures(weeks: seq<Week>, removedOrder: seq<string>, added: set<string>, grid: seq<Week>)
    ensures ContentsFrom(DropEmptyWeeks(WithoutDays(weeks, Elems(removedOrder))), grid, RemoveDays(weeks, removedOrder).1) ==>
      DealtFromDeleted(weeks, grid, Elems(removedOrder), added)
  {
    RemoveDaysCaptures(weeks, removedOrder);
  }

  /** The outcome of the repair for dropped days: no week keeps a dropped
      day, none is left empty or gets a new number, every deleted day is
      counted, the deleted contents are all dealt out exactly when a day was
      added, every added day holds either its old content or a deleted pair
      of its week, and every other day stays where it was. */
  predicate DropRepaired(before: seq<Week>, after: seq<Week>, rep: Report, removed: set<string>, added: set<string>) {
    && Avoids(after, removed)
    && NoEmptyWeek(after)
    && WeekNumbers(after) <= WeekNumbers(before)
    && rep.removed == SharedCount(before, removed)
    && rep.redistributed == (if added != {} then rep.removed else 0)
    && rep.placeholders == 0
    && RepairedAfterDrop(before, after, removed, added)
    && KeepsOtherDays(before, after, removed + added)
    && DealtFromDeleted(before, after, removed, added)
  }

  /** The outcome of the repair for added days only: the first record of
      every week number gains a placeholder for each added day it lacks, every
      other record is kept, and the count is the number of placeholders. */
  predicate PlaceholdersAdded(before: seq<Week>, after: seq<Week>, rep: Report, added: set<string>) {
    && rep.removed == 0 && rep.redistributed == 0
    && |after| == |before|
    && (forall k :: 0 <= k < |before| ==>
          if FirstOfWeek(before, k, {}) then after[k] == BulkOperations.FillWeek(before[k], added)
          else after[k] == before[k])
    && TotalDays(after) == TotalDays(before) + rep.placeholders
  }

  /** The records left once the days in `removed` are deleted and emptied
      records dropped hold none of `removed` and no new week number. */
  lemma KeptAfterRemoval(weeks: seq<Week>, removed: set<string>)
    ensures var kept := DropEmptyWeeks(WithoutDays(weeks, removed));
      Avoids(kept, removed) && WeekNumbers(kept) <= WeekNumbers(weeks)
  {
    var stripped := WithoutDays(weeks, removed);
    forall v | v in DropEmptyWeeks(stripped) ensures v.days.Keys !! removed && v.week in WeekNumbers(weeks) {
      assert v in stripped;
      var k :| 0 <= k < |stripped| && stripped[k] == v;
      assert weeks[k] in weeks;
    }
  }

  /** The repair when some class day was dropped: the dropped days' contents
      are deleted from every week, weeks left empty are dropped, and, when days
      were also added, the deleted contents are dealt out over the added days
      in `addedOrder`. */
  function DropDays(weeks: seq<Week>, removedOrder: seq<string>, addedOrder: seq<string>): (r: (seq<Week>, Report))
    requires Distinct(removedOrder)
    requires Elems(removedOrder) !! Elems(addedOrder)
    ensures DropRepaired(weeks, r.0, r.1, Elems(removedOrder), Elems(addedOrder))
    ensures addedOrder == [] ==> r.0 == DropEmptyWeeks(WithoutDays(weeks, Elems(removedOrder)))
    ensures DealtRoundRobin(weeks, r.0, removedOrder, addedOrder)
  {
    var removed := Elems(removedOrder);
    var (stripped, caps) := RemoveDays(weeks, removedOrder);
    RemoveDaysCount(weeks, removedOrder);
    ElemsNonEmpty(addedOrder);
    var kept := DropEmptyWeeks(stripped);
    KeptAfterRemoval(weeks, removed);
    if |caps| > 0 && addedOrder != [] then
      var (grid, count) := Redistribute(kept, caps, addedOrder, 0);
      RedistributeAvoids(kept, caps, addedOrder, 0, removed);
      RedistributeExtends(kept, caps, addedOrder, 0);
      RedistributeNumbers(kept, caps, addedOrder, 0);
      RedistributeWritesOnlyTargets(kept, caps, addedOrder, 0);
      AppendedOncePerWeek(kept, grid, caps, addedOrder, 0);
      RepairedByRedistribution(weeks, removed, Elems(addedOrder), grid, caps);
      RedistributeSources(kept, caps, addedOrder, 0);
      DealtFromCaptures(weeks, removedOrder, Elems(addedOrder), grid);
      AllCapturesLand(kept, caps, addedOrder);
      (grid, Report(|caps|, count, 0))
    else
      RepairedByDeletion(weeks, removed, Elems(addedOrder));
      (kept, Report(|caps|, 0, 0))
  }

  /** The grid repair for a change of class days. Dropped days are handled
      first; only when no day was dropped do added days get placeholders, in
      the first record of every week number. `removedOrder` and `addedOrder`
      are the iteration orders of the two day sets. */
  function ReconcileLectures(weeks: seq<Week>, removedOrder: seq<string>, addedOrder: seq<string>): (r: (seq<Week>, Report))
    requires Distinct(removedOrder)
    requires Elems(removedOrder) !! Elems(addedOrder)
    ensures removedOrder != [] ==> DropRepaired(weeks, r.0, r.1, Elems(removedOrder), Elems(addedOrder))
    ensures removedOrder != [] ==> DealtRoundRobin(weeks, r.0, removedOrder, addedOrder)
    ensures removedOrder == [] ==> PlaceholdersAdded(weeks, r.0, r.1, Elems(addedOrder))
    ensures removedOrder == [] && addedOrder == [] ==> r == (weeks, NoChange)
  {
    if removedOrder != [] then DropDays(weeks, removedOrder, addedOrder)
    else if addedOrder != [] then
      var (grid, count) := AddPlaceholders(weeks, Elems(addedOrder), {});
      AddPlaceholdersTotal(weeks, Elems(addedOrder), {});
      (grid, Report(0, 0, count))
    else
      NothingAdded(weeks);
      (weeks, NoChange)
  }

  /** With no day added, the placeholder repair changes nothing. */
  lemma NothingAdded(weeks: seq<Week>)
    ensures PlaceholdersAdded(weeks, weeks, NoChange, {})
  {
    forall k | 0 <= k < |weeks| ensures BulkOperations.FillWeek(weeks[k], {}) == weeks[k] {
      BulkOperations.FillWeekComplete(weeks[k], {});
    }
  }

  /** Two dropped days of one week dealt onto a single added day: both count
      as redistributed, yet the second content overwrites the first, so the
      grid keeps one day where two were reported moved. */
  lemma RedistributionOverwrites(a: DayContent, b: DayContent)
    ensures var r := Redistribute([], [Capture(1, a), Capture(1, b)], ["tuesday"], 0);
      r.1 == 2 && r.0 == [Week(1, map["tuesday" := b])] && TotalDays(r.0) == 1
  {
    var caps := [Capture(1, a), Capture(1, b)];
    var first := AssignDay([], 1, "tuesday", a);
    assert first == [Week(1, map["tuesday" := a])];
    assert FirstIndex(first, 1) == 0;
    assert map["tuesday" := a]["tuesday" := b] == map["tuesday" := b];
    var second := AssignDay(first, 1, "tuesday", b);
    assert second == [Week(1, map["tuesday" := b])];
    assert caps[1..] == [Capture(1, b)] && caps[1..][1..] == [];
    assert Redistribute(second, [], ["tuesday"], 2) == (second, 0);
    assert Redistribute(first, caps[1..], ["tuesday"], 1) == (second, 1);
    assert TotalDays(second) == |map["tuesday" := b]| + TotalDays([]);
  }

  /** The grid step of the settings update: the grid is repaired only when
      automatic management is requested, the document has a grid and some
      class day was dropped or added. */
  function RepairGrid(lectures: Option<seq<Week>>, autoManage: bool, removedOrder: seq<string>, addedOrder: seq<string>): (r: (Option<seq<Week>>, Report))
    requires Distinct(removedOrder)
    requires Elems(removedOrder) !! Elems(addedOrder)
    ensures r.0.None? <==> lectures.None?
    ensures !autoManage || lectures.None? || (removedOrder == [] && addedOrder == []) ==>
      r == (lectures, NoChange)
    ensures autoManage && lectures.Some? && removedOrder != [] ==>
      DropRepaired(lectures.value, r.0.GetOr([]), r.1, Elems(removedOrder), Elems(addedOrder))
    ensures autoManage && lectures.Some? && removedOrder != [] ==>
      DealtRoundRobin(lectures.value, r.0.GetOr([]), removedOrder, addedOrder)
    ensures autoManage && lectures.Some? && removedOrder == [] ==>
      PlaceholdersAdded(lectures.value, r.0.GetOr([]), r.1, Elems(addedOrder))
  {
    match lectures
    case Some(weeks) =>
      if autoManage && (removedOrder != [] || addedOrder != []) then
        var repaired := ReconcileLectures(weeks, removedOrder, addedOrder);
        (Some(repaired.0), repaired.1)
      else
        NothingAdded(weeks);
        (lectures, NoChange)
    case None => (lectures, NoChange)
  }

  /** `update_schedule_settings`: stores the semester dates, the class days
      and the holidays from the form; the grid is repaired only when automatic
      management is requested, the document has a grid and the set of class
      day names changed. The flat sequence is never touched. */
  function UpdateSettings(s: Schedule, form: SettingsForm, removedOrder: seq<string>, addedOrder: seq<string>): (r: (Schedule, Report))
    requires Enumerates(removedOrder, DaySet(s.classDays) - DaySet(ParseClassDays(form.days, form.times)))
    requires Enumerates(addedOrder, DaySet(ParseClassDays(form.days, form.times)) - DaySet(s.classDays))
    ensures var after, newDays := r.0, ParseClassDays(form.days, form.times);
      && after.classDays == newDays
      && after.semesterStart == form.semesterStart && after.semesterEnd == form.semesterEnd
      && after.holidays == NormalizeHolidays(form.holidayList, form.holidayText)
      && after.lectureSequence == s.lectureSequence
      && (after.lectures.None? <==> s.lectures.None?)
    ensures var newDays := ParseClassDays(form.days, form.times);
      !form.autoManage || s.lectures.None? || DaySet(newDays) == DaySet(s.classDays) ==>
        r.0.lectures == s.lectures && r.1 == NoChange
    ensures (r.0.lectures, r.1) == RepairGrid(s.lectures, form.autoManage, removedOrder, addedOrder)
  {
    var newDays := ParseClassDays(form.days, form.times);
    var changed := DaySet(s.classDays) != DaySet(newDays);
    assert changed <==> removedOrder != [] || addedOrder != [] by {
      if removedOrder != [] { assert removedOrder[0] in Elems(removedOrder); }
      if addedOrder != [] { assert addedOrder[0] in Elems(addedOrder); }
      if removedOrder == [] && addedOrder == [] {
        assert Elems(removedOrder) == {} && Elems(addedOrder) == {};
        assert DaySet(s.classDays) == DaySet(newDays);
      }
    }
    var lectures := RepairGrid(s.lectures, form.autoManage, removedOrder, addedOrder);
    var after := s.(
      semesterStart := form.semesterStart,
      semesterEnd := form.semesterEnd,
      classDays := newDays,
      holidays := NormalizeHolidays(form.holidayList, form.holidayText),
      lectures := lectures.0);
    (after, lectures.1)
  }

  /** With automatic management on and some class day dropped, no week keeps
      a dropped day, no week is left empty, every deleted day is counted, the
      deleted contents are all dealt out exactly when a day was added, each
      under its round-robin added day in the first record of its week, no
      other slot is written, and every added day holds either its old content
      or a deleted pair. */
  lemma UpdateSettingsDropsRemovedDays(s: Schedule, form: SettingsForm, removedOrder: seq<string>, addedOrder: seq<string>)
    requires Enumerates(removedOrder, DaySet(s.classDays) - DaySet(ParseClassDays(form.days, form.times)))
    requires Enumerates(addedOrder, DaySet(ParseClassDays(form.days, form.times)) - DaySet(s.classDays))
    requires form.autoManage && s.lectures.Some?
    requires DaySet(s.classDays) - DaySet(ParseClassDays(form.days, form.times)) != {}
    ensures var r := UpdateSettings(s, form, removedOrder, addedOrder);
      var newSet := DaySet(ParseClassDays(form.days, form.times));
      var removed, added := DaySet(s.classDays) - newSet, newSet - DaySet(s.classDays);
      && DropRepaired(Grid(s), Grid(r.0), r.1, removed, added)
      && DealtRoundRobin(Grid(s), Grid(r.0), removedOrder, addedOrder)
  {
  }

  /** A content landed in week `n` of a grid whose only week number is `n`
      sits in the grid's first record. */
  lemma LandedInOnlyWeek(r: seq<Week>, c: Capture, day: string)
    requires Landed(r, c, day, true) && WeekNumbers(r) <= {c.week}
    ensures r != [] && r[0].week == c.week && day in r[0].days && r[0].days[day] == c.content
  {
    assert r[0] in r;
    assert r[0].week in WeekNumbers(r);
    assert FirstIndex(r, c.week) == 0;
  }

  lemma MondayCaptured(x: DayContent)
    ensures RemoveDays([Week(1, map["monday" := x])], ["monday"]).1 == [Capture(1, x)]
    ensures LastForSlot([Capture(1, x)], ["tuesday"], 0, 0) && TargetOf(["tuesday"], 0, 0) == "tuesday"
    ensures WeekNumbers([Week(1, map["monday" := x])]) == {1}
  {
    var weeks, order := [Week(1, map["monday" := x])], ["monday"];
    assert order[1..] == [] && "monday" in weeks[0].days && weeks[0].days["monday"] == x;
    assert CaptureWeek(weeks[0], order[1..]) == [];
    assert CaptureWeek(weeks[0], order) == [Capture(1, x)] + [];
    assert weeks[1..] == [];
    assert CaptureAll(weeks[1..], order) == [];
    assert CaptureAll(weeks, order) == [Capture(1, x)] + [];
  }

  /** Replacing Monday by Tuesday moves week 1's Monday content to Tuesday. */
  lemma MondayMovesToTuesday(x: DayContent)
    ensures var r := DropDays([Week(1, map["monday" := x])], ["monday"], ["tuesday"]).0;
      r != [] && r[0].week == 1 && "tuesday" in r[0].days && r[0].days["tuesday"] == x
  {
    var r := DropDays([Week(1, map["monday" := x])], ["monday"], ["tuesday"]).0;
    MondayCaptured(x);
    LandedInOnlyWeek(r, Capture(1, x), "tuesday");
  }

  lemma MondayCapturedBesideFriday(x: DayContent, y: DayContent)
    ensures var weeks := [Week(1, map["monday" := x, "friday" := y])];
      && RemoveDays(weeks, ["monday"]).1 == [Capture(1, x)]
      && DropEmptyWeeks(WithoutDays(weeks, Elems(["monday"]))) == [Week(1, map["friday" := y])]
  {
    var weeks, order := [Week(1, map["monday" := x, "friday" := y])], ["monday"];
    var w := weeks[0];
    assert order[1..] == [] && "monday" in w.days && w.days["monday"] == x;
    assert CaptureWeek(w, order[1..]) == [];
    assert CaptureWeek(w, order) == [Capture(1, x)] + [];
    assert weeks[1..] == [];
    assert CaptureAll(weeks[1..], order) == [];
    assert CaptureAll(weeks, order) == [Capture(1, x)] + [];
    assert Elems(order) == {"monday"};
    assert w.days - {"monday"} == map["friday" := y];
    var stripped := WithoutDays(weeks, {"monday"});
    assert stripped == [Week(1, map["friday" := y])];
    DropEmptyWeeksSingle(stripped[0]);
  }

  /** With one deleted content and two added days, only the first added day
      receives it: the second stays absent. */
  lemma OnlyTargetDayWritten(x: DayContent, y: DayContent)
    ensures var r := DropDays([Week(1, map["monday" := x, "friday" := y])], ["monday"], ["tuesday", "wednesday"]).0;
      r != [] && "wednesday" !in r[0].days
  {
    var r := DropDays([Week(1, map["monday" := x, "friday" := y])], ["monday"], ["tuesday", "wednesday"]).0;
    MondayCapturedBesideFriday(x, y);
    OneCaptureTargetsTuesday(x);
    UntargetedStaysAbsent([Week(1, map["friday" := y])], r, [Capture(1, x)], ["tuesday", "wednesday"], "wednesday");
  }

  lemma OneCaptureTargetsTuesday(x: DayContent)
    ensures forall i :: 0 <= i < |[Capture(1, x)]| ==> TargetOf(["tuesday", "wednesday"], 0, i) != "wednesday"
  {
    assert TargetOf(["tuesday", "wednesday"], 0, 0) == "tuesday";
  }

  /** A day no capture targets, absent from the first surviving record, is
      absent from it after the repair. */
  lemma UntargetedStaysAbsent(kept: seq<Week>, r: seq<Week>, caps: seq<Capture>, targets: seq<string>, d: string)
    requires targets != [] && kept != [] && d !in kept[0].days
    requires Extends(kept, r, Elems(targets)) && WritesOnlyTargets(kept, r, caps, targets, 0)
    requires forall i :: 0 <= i < |caps| ==> TargetOf(targets, 0, i) != d
    ensures r != [] && d !in r[0].days
  {
  }

  lemma ElemsNonEmpty(xs: seq<string>)
    ensures xs != [] <==> Elems(xs) != {}
  {
    if xs != [] {
      assert xs[0] in Elems(xs);
    }
  }

  /** With automatic management on and no class day dropped, the first record
      of every week number gains a placeholder for each added day it lacks and
      every other record is kept; nothing is removed or redistributed. */
  lemma UpdateSettingsFillsAddedDays(s: Schedule, form: SettingsForm, removedOrder: seq<string>, addedOrder: seq<string>)
    requires Enumerates(removedOrder, DaySet(s.classDays) - DaySet(ParseClassDays(form.days, form.times)))
    requires Enumerates(addedOrder, DaySet(ParseClassDays(form.days, form.times)) - DaySet(s.classDays))
    requires form.autoManage && s.lectures.Some?
    requires DaySet(s.classDays) - DaySet(ParseClassDays(form.days, form.times)) == {}
    ensures var r := UpdateSettings(s, form, removedOrder, addedOrder);
      var added := DaySet(ParseClassDays(form.days, form.times)) - DaySet(s.classDays);
      PlaceholdersAdded(Grid(s), Grid(r.0), r.1, added)
  {
    ElemsNonEmpty(removedOrder);
    var r := UpdateSettings(s, form, removedOrder, addedOrder);
    var g := RepairGrid(s.lectures, form.autoManage, removedOrder, addedOrder);
    assert Grid(r.0) == g.0.GetOr([]) && r.1 == g.1 && Grid(s) == s.lectures.value;
  }
}

=== FILE: course_data.dfy ===
/** The schedule document: the week-by-day lecture grid, the optional flat
    lecture sequence and the configured class days. */
module CourseData {
  import opened Outcomes

  /** One `{name, url}` link attached to a lecture. */
  datatype Material = Material(name: string, url: string)

  /** The value stored under a weekday key of a lecture week. `Blank` is a null
      value or an empty mapping, both falsy; `Content` is a non-empty mapping
      whose optional `topic` and `materials` keys are the ones modelled. */
  datatype DayContent =
    | Blank
    | Content(topic: Option<string>, materials: Option<seq<Material>>)

  /** One entry of the flat lecture sequence. */
  datatype Entry = Entry(topic: string, materials: seq<Material>)

  /** One record of the grid: its `week` number and a sparse map from weekday
      name to that day's content. Week numbers need not be unique or contiguous. */
  datatype Week = Week(week: int, days: map<string, DayContent>)

  /** One configured meeting day. */
  datatype ClassDay = ClassDay(day: string, time: string)

  /** The course schedule document. An absent `course_schedule` or `class_days`
      reads as no class days; `lectures` and `lecture_sequence` may be absent. */
  datatype Schedule = Schedule(
    semesterStart: string,
    semesterEnd: string,
    classDays: seq<ClassDay>,
    holidays: seq<string>,
    lectures: Option<seq<Week>>,
    lectureSequence: Option<seq<Entry>>)

  const TBD: string := "TBD"

  /** The content every generated or filled-in day receives. */
  const Placeholder: DayContent := Content(Some(TBD), Some([]))

  /** The day order used when no class day is named. */
  const CanonicalWeek: seq<string> :=
    ["monday", "tuesday", "wednesday", "thursday", "friday", "saturday", "sunday"]

  /** The grid, reading an absent `lectures` key as the empty list. */
  function Grid(s: Schedule): seq<Week> {
    s.lectures.GetOr([])
  }

  /** The entry a truthy day content contributes to the flat sequence. */
  function ToEntry(c: DayContent): Entry
    requires c.Content?
  {
    Entry(c.topic.GetOr(TBD), c.materials.GetOr([]))
  }

  /** The configured day names in configuration order. */
  function DayNames(classDays: seq<ClassDay>): (names: seq<string>)
    ensures |names| == |classDays|
    ensures forall i :: 0 <= i < |classDays| ==> names[i] == classDays[i].day
  {
    seq(|classDays|, i requires 0 <= i < |classDays| => classDays[i].day)
  }

  function Elems(xs: seq<string>): set<string> {
    set x | x in xs
  }

  /** The configured day names as a set. */
  function DaySet(classDays: seq<ClassDay>): set<string> {
    Elems(DayNames(classDays))
  }

  predicate Distinct(xs: seq<string>) {
    forall i, j :: 0 <= i < j < |xs| ==> xs[i] != xs[j]
  }

  /** `xs` lists the members of `s`, each once, in some order. */
  predicate Enumerates(xs: seq<string>, s: set<string>) {
    Distinct(xs) && Elems(xs) == s
  }

  /** Day `d` of week `w` holds truthy content. */
  predicate Present(w: Week, d: string) {
    d in w.days && w.days[d].Content?
  }

  /** No week is left holding only its `week` key. */
  predicate NoEmptyWeek(weeks: seq<Week>) {
    forall k :: 0 <= k < |weeks| ==> |weeks[k].days| > 0
  }

  /** No week holds any of the days in `ds`. */
  predicate Avoids(weeks: seq<Week>, ds: set<string>) {
    forall w :: w in weeks ==> w.days.Keys !! ds
  }

  /** Every week holds only days in `ds`. */
  predicate DaysWithin(weeks: seq<Week>, ds: set<string>) {
    forall w :: w in weeks ==> w.days.Keys <= ds
  }

  /** The week numbers that occur in the grid. */
  function WeekNumbers(weeks: seq<Week>): set<int> {
    set w | w in weeks :: w.week
  }

  /** The number of (week, day) keys in the grid. */
  function TotalDays(weeks: seq<Week>): nat {
    if weeks == [] then 0 else |weeks[0].days| + TotalDays(weeks[1..])
  }

  /** The grid without the weeks that hold no day. */
  function DropEmptyWeeks(weeks: seq<Week>): (kept: seq<Week>)
    ensures NoEmptyWeek(kept)
    ensures forall w :: w in kept <==> w in weeks && |w.days| > 0
    ensures TotalDays(kept) == TotalDays(weeks)
    ensures |kept| <= |weeks|
  {
    if weeks == [] then []
    else if |weeks[0].days| > 0 then [weeks[0]] + DropEmptyWeeks(weeks[1..])
    else DropEmptyWeeks(weeks[1..])
  }

  /** Dropping empty weeks works record by record, so the survivors keep
      their stored order. */
  lemma {:induction false} DropEmptyWeeksAppend(a: seq<Week>, b: seq<Week>)
    ensures DropEmptyWeeks(a + b) == DropEmptyWeeks(a) + DropEmptyWeeks(b)
  {
    if a == [] {
      assert a + b == b;
    } else {
      assert (a + b)[1..] == a[1..] + b;
      DropEmptyWeeksAppend(a[1..], b);
    }
  }

  /** A single record survives exactly when it holds a day. */
  lemma DropEmptyWeeksSingle(w: Week)
    ensures DropEmptyWeeks([w]) == if |w.days| > 0 then [w] else []
  {
    assert [w][1..] == [];
  }

  /** A record that holds a day lands, after the empty weeks are dropped, at
      the position given by the survivors before it. */
  lemma DropEmptyWeeksIndex(weeks: seq<Week>, k: int)
    requires 0 <= k < |weeks| && |weeks[k].days| > 0
    ensures |DropEmptyWeeks(weeks[..k])| < |DropEmptyWeeks(weeks)|
    ensures DropEmptyWeeks(weeks)[|DropEmptyWeeks(weeks[..k])|] == weeks[k]
  {
    assert weeks == weeks[..k] + ([weeks[k]] + weeks[k + 1..]);
    DropEmptyWeeksAppend(weeks[..k], [weeks[k]] + weeks[k + 1..]);
    DropEmptyWeeksAppend([weeks[k]], weeks[k + 1..]);
    DropEmptyWeeksSingle(weeks[k]);
  }
}

=== FILE: holidays.dfy ===
/** Normalisation of the submitted holiday dates: the repeated-field list form
    is used when it holds a non-blank item, otherwise the text block is split
    into lines; every item is stripped and blank items are dropped. */
module Holidays {

  /** The characters Python's `str.strip()` removes (those `str.isspace` accepts). */
  predicate IsSpace(c: char) {
    var n := c as int;
    || 9 <= n <= 13 || 28 <= n <= 32 || n == 0x85 || n == 0xA0 || n == 0x1680
    || 0x2000 <= n <= 0x200A || n == 0x2028 || n == 0x2029 || n == 0x202F
    || n == 0x205F || n == 0x3000
  }

  /** Every character of `t` is whitespace (the empty string included). */
  predicate Blank(t: string) {
    forall k :: 0 <= k < |t| ==> IsSpace(t[k])
  }

  /** `t` neither starts nor ends with whitespace. */
  predicate IsStripped(t: string) {
    t != [] ==> !IsSpace(t[0]) && !IsSpace(t[|t| - 1])
  }

  /** `t` without its leading whitespace. */
  function TrimLeft(t: string): (r: string)
    ensures |r| <= |t| && r == t[|t| - |r|..]
    ensures forall k :: 0 <= k < |t| - |r| ==> IsSpace(t[k])
    ensures r != [] ==> !IsSpace(r[0])
  {
    if t != [] && IsSpace(t[0]) then TrimLeft(t[1..]) else t
  }

  /** `t` without its trailing whitespace. */
  function TrimRight(t: string): (r: string)
    ensures |r| <= |t| && r == t[..|r|]
    ensures forall k :: |r| <= k < |t| ==> IsSpace(t[k])
    ensures r != [] ==> !IsSpace(r[|r| - 1])
  {
    if t != [] && IsSpace(t[|t| - 1]) then TrimRight(t[..|t| - 1]) else t
  }

  /** `r` is the slice of `t` that starts at position `i`. */
  predicate OccursAt(r: string, t: string, i: int) {
    0 <= i <= i + |r| <= |t| && t[i..i + |r|] == r
  }

  /** Everything of `t` before position `a` and from position `b` on is whitespace. */
  predicate BlankOutside(t: string, a: int, b: int) {
    0 <= a <= b <= |t| && Blank(t[..a]) && Blank(t[b..])
  }

  /** Python's `str.strip()`: the longest infix of `t` that neither starts nor
      ends with whitespace; empty exactly when `t` is blank. */
  function Strip(t: string): (r: string)
    ensures IsStripped(r)
    ensures r == [] <==> Blank(t)
    ensures OccursAt(r, t, |t| - |TrimLeft(t)|)
    ensures BlankOutside(t, |t| - |TrimLeft(t)|, |t| - |TrimLeft(t)| + |r|)
    ensures forall c :: c in r ==> c in t
  {
    var r := TrimRight(TrimLeft(t));
    StripFacts(t, TrimLeft(t), r);
    r
  }

  /** The facts `Strip` promises, for the trim of the trim. */
  lemma StripFacts(t: string, left: string, r: string)
    requires left == TrimLeft(t) && r == TrimRight(left)
    ensures IsStripped(r)
    ensures r == [] <==> Blank(t)
    ensures OccursAt(r, t, |t| - |left|)
    ensures BlankOutside(t, |t| - |left|, |t| - |left| + |r|)
    ensures forall c :: c in r ==> c in t
  {
    PrefixOfSuffix(t, left, r);
    StripBlank(t, left, r);
    StripEnds(left, r);
    StripSurround(t, left, r);
  }

  /** What trimming cuts off either end is whitespace. */
  lemma StripSurround(t: string, left: string, r: string)
    requires left == TrimLeft(t) && r == TrimRight(left)
    ensures BlankOutside(t, |t| - |left|, |t| - |left| + |r|)
  {
    BlankHead(t, |t| - |left|);
    BlankTail(t, left, r);
  }

  /** A prefix made of whitespace is blank. */
  lemma BlankHead(t: string, a: int)
    requires 0 <= a <= |t|
    requires forall k :: 0 <= k < a ==> IsSpace(t[k])
    ensures Blank(t[..a])
  {
    forall k | 0 <= k < a ensures IsSpace(t[..a][k]) {
      assert t[..a][k] == t[k];
    }
  }

  /** The rest of `t` after a prefix `r` of its suffix `left` is blank when
      the rest of `left` is. */
  lemma BlankTail(t: string, left: string, r: string)
    requires |left| <= |t| && left == t[|t| - |left|..]
    requires |r| <= |left|
    requires forall k :: |r| <= k < |left| ==> IsSpace(left[k])
    ensures Blank(t[|t| - |left| + |r|..])
  {
    var tail := t[|t| - |left| + |r|..];
    assert tail == left[|r|..];
    forall k | 0 <= k < |tail| ensures IsSpace(tail[k]) {
      assert tail[k] == left[|r| + k];
    }
  }

  lemma PrefixOfSuffix(t: string, left: string, r: string)
    requires |left| <= |t| && left == t[|t| - |left|..]
    requires |r| <= |left| && r == left[..|r|]
    ensures OccursAt(r, t, |t| - |left|)
    ensures forall c :: c in r ==> c in t
  {
    var a := |t| - |left|;
    assert t[a..][..|r|] == t[a..a + |r|];
    SliceChars(t, a, a + |r|);
  }

  lemma StripEnds(left: string, r: string)
    requires left != [] ==> !IsSpace(left[0])
    requires r == TrimRight(left)
    ensures IsStripped(r)
  {
    if r != [] {
      assert r[0] == left[0];
    }
  }

  lemma StripBlank(t: string, left: string, r: string)
    requires left == TrimLeft(t) && r == TrimRight(left)
    ensures r == [] <==> Blank(t)
  {
    if r != [] {
      assert !IsSpace(r[0]) && r[0] == t[|t| - |left|];
    }
  }

  lemma SliceChars(t: string, a: int, b: int)
    requires 0 <= a <= b <= |t|
    ensures forall c :: c in t[a..b] ==> c in t
  {
    forall c | c in t[a..b] ensures c in t {
      var k :| 0 <= k < b - a && t[a..b][k] == c;
      assert t[a + k] == c;
    }
  }

  /** Stripping twice strips nothing more. */
  lemma StripIdempotent(t: string)
    ensures Strip(Strip(t)) == Strip(t)
  {
  }

  /** The position of the first `c` in `t`. */
  function IndexOf(t: string, c: char): (i: nat)
    requires c in t
    ensures i < |t| && t[i] == c && c !in t[..i]
  {
    if t[0] == c then 0
    else
      assert t[1..][..IndexOf(t[1..], c)] == t[1..IndexOf(t[1..], c) + 1];
      1 + IndexOf(t[1..], c)
  }

  /** The lines joined back with newlines. */
  function JoinLines(lines: seq<string>): string
    requires lines != []
  {
    if |lines| == 1 then lines[0] else lines[0] + "\n" + JoinLines(lines[1..])
  }

  /** Python's `str.split('\n')`: the newline-free pieces between newlines. */
  function SplitLines(t: string): (lines: seq<string>)
    ensures lines != []
    ensures forall k :: 0 <= k < |lines| ==> '\n' !in lines[k]
    ensures JoinLines(lines) == t
    decreases |t|
  {
    if '\n' !in t then [t]
    else
      var i := IndexOf(t, '\n');
      var rest := SplitLines(t[i + 1..]);
      assert t == t[..i] + "\n" + t[i + 1..];
      assert ([t[..i]] + rest)[1..] == rest;
      [t[..i]] + rest
  }

  /** Every item of `xs` is blank. */
  predicate AllBlank(xs: seq<string>) {
    forall k :: 0 <= k < |xs| ==> Blank(xs[k])
  }

  /** The stripped forms of the items of `xs` that are not blank. */
  function StrippedItems(xs: seq<string>): set<string> {
    set x | x in xs && !Blank(x) :: Strip(x)
  }

  lemma StrippedItemsStep(xs: seq<string>)
    requires xs != []
    ensures StrippedItems(xs) == (if Blank(xs[0]) then {} else {Strip(xs[0])}) + StrippedItems(xs[1..])
    ensures AllBlank(xs) <==> Blank(xs[0]) && AllBlank(xs[1..])
  {
    assert forall x :: x in xs <==> x == xs[0] || x in xs[1..];
    assert forall k :: 1 <= k < |xs| ==> xs[1..][k - 1] == xs[k];
  }

  /** The stripped items of `xs` that are not blank, in order. */
  function StripNonBlank(xs: seq<string>): (r: seq<string>)
    ensures |r| <= |xs|
    ensures r == [] <==> AllBlank(xs)
  {
    if xs == [] then []
    else
      var rest := StripNonBlank(xs[1..]);
      StrippedItemsStep(xs);
      if Blank(xs[0]) then rest else [Strip(xs[0])] + rest
  }

  /** No kept item is empty or padded with whitespace. */
  lemma {:induction false} StripNonBlankClean(xs: seq<string>)
    ensures forall k :: 0 <= k < |StripNonBlank(xs)| ==>
      StripNonBlank(xs)[k] != "" && IsStripped(StripNonBlank(xs)[k])
  {
    if xs != [] {
      StripNonBlankClean(xs[1..]);
      var rest := StripNonBlank(xs[1..]);
      if !Blank(xs[0]) {
        var h := Strip(xs[0]);
        assert h != "" && IsStripped(h);
        var r := [h] + rest;
        forall k | 0 <= k < |r| ensures r[k] != "" && IsStripped(r[k]) {
          if k > 0 {
            assert r[k] == rest[k - 1];
          }
        }
      }
    }
  }

  /** The kept items are exactly the stripped non-blank items. */
  lemma {:induction false} StripNonBlankItems(xs: seq<string>)
    ensures forall h :: h in StripNonBlank(xs) <==> h in StrippedItems(xs)
  {
    if xs != [] {
      StripNonBlankItems(xs[1..]);
      StrippedItemsStep(xs);
    }
  }

  /** Stripping a newline-free item leaves it newline-free. */
  lemma NoNewlineItems(lines: seq<string>)
    requires forall k :: 0 <= k < |lines| ==> '\n' !in lines[k]
    ensures forall h :: h in StrippedItems(lines) ==> '\n' !in h
  {
    forall h | h in StrippedItems(lines) ensures '\n' !in h {
      var x :| x in lines && !Blank(x) && h == Strip(x);
    }
  }

  /** The holiday dates read from the text block, one per line. */
  function HolidaysFromText(text: string): (r: seq<string>)
    ensures forall k :: 0 <= k < |r| ==> r[k] != "" && IsStripped(r[k])
    ensures forall h :: h in r <==> h in StrippedItems(SplitLines(Strip(text)))
    ensures forall h :: h in r ==> '\n' !in h
    ensures r == [] <==> Blank(text)
  {
    var t := Strip(text);
    var lines := SplitLines(t);
    NoNewlineItems(lines);
    if t == [] then
      assert lines == [""];
      StrippedItemsStep(lines);
      []
    else
      var r := StripNonBlank(lines);
      StripNonBlankClean(lines);
      StripNonBlankItems(lines);
      assert r != [] by {
        if r == [] {
          BlankJoin(lines);
        }
      }
      r
  }

  /** The holiday dates stored from the settings form: the list form when it
      holds a non-blank item, otherwise the text form. */
  function NormalizeHolidays(list: seq<string>, text: string): (r: seq<string>)
    ensures forall k :: 0 <= k < |r| ==> r[k] != "" && IsStripped(r[k])
    ensures !AllBlank(list) ==> forall h :: h in r <==> h in StrippedItems(list)
    ensures AllBlank(list) ==>
      forall h :: h in r <==> h in StrippedItems(SplitLines(Strip(text)))
    ensures AllBlank(list) ==> forall h :: h in r ==> '\n' !in h
    ensures r == [] <==> AllBlank(list) && Blank(text)
  {
    var fromList := StripNonBlank(list);
    StripNonBlankClean(list);
    StripNonBlankItems(list);
    if fromList != [] then fromList else HolidaysFromText(text)
  }

  /** Newline is whitespace, so lines that are all blank join into blank text. */
  lemma {:induction false} BlankJoin(lines: seq<string>)
    requires lines != []
    requires AllBlank(lines)
    ensures Blank(JoinLines(lines))
  {
    assert Blank(lines[0]);
    if |lines| > 1 {
      assert forall k :: 0 <= k < |lines| - 1 ==> lines[1..][k] == lines[k + 1];
      BlankJoin(lines[1..]);
      assert IsSpace('\n');
    }
  }
}

=== FILE: lecture_sequence.dfy ===
/** The lecture-sequence editors. Each rebuilds the current sequence, applies
    one index-addressed change and stores the result as the flat sequence,
    which from then on is authoritative over the grid. */
module LectureSequence {
  import opened Outcomes
  import opened CourseData
  import opened SequenceBuilder
  import ListOps

  /** The schedule with `es` stored as its flat sequence. */
  function Store(s: Schedule, es: seq<Entry>): Schedule {
    s.(lectureSequence := Some(es))
  }

  /** Appends a lecture with the given topic and no materials. */
  function AddLecture(s: Schedule, topic: string): (r: Schedule)
    ensures BuildSequence(r) == BuildSequence(s) + [Entry(topic, [])]
    ensures r.lectureSequence == Some(BuildSequence(s) + [Entry(topic, [])])
    ensures r == s.(lectureSequence := r.lectureSequence)
  {
    Store(s, BuildSequence(s) + [Entry(topic, [])])
  }

  /** Appends one material to the lecture at `i`. An out-of-range index is
      dropped silently: the document is left as it was. */
  function AddMaterial(s: Schedule, i: int, name: string, url: string): (r: Schedule)
    ensures !(0 <= i < |BuildSequence(s)|) ==> r == s
    ensures 0 <= i < |BuildSequence(s)| ==>
      var before, after := BuildSequence(s), BuildSequence(r);
      && r == s.(lectureSequence := r.lectureSequence)
      && r.lectureSequence == Some(after)
      && |after| == |before|
      && after[i] == Entry(before[i].topic, before[i].materials + [Material(name, url)])
      && forall j :: 0 <= j < |before| && j != i ==> after[j] == before[j]
  {
    var es := BuildSequence(s);
    if 0 <= i < |es| then
      Store(s, es[i := es[i].(materials := es[i].materials + [Material(name, url)])])
    else
      s
  }

  /** Overwrites the lecture at `i` with a new topic and material list. A
      missing or out-of-range index is reported and nothing is stored. */
  function EditLecture(s: Schedule, i: Option<int>, topic: string, materials: seq<Material>): (r: Result<Schedule>)
    ensures r.Ok? <==> i.Some? && 0 <= i.value < |BuildSequence(s)|
    ensures r.Err? ==> r.error == NotFound
    ensures r.Ok? ==>
      var before, after := BuildSequence(s), BuildSequence(r.value);
      && r.value == s.(lectureSequence := r.value.lectureSequence)
      && r.value.lectureSequence == Some(after)
      && |after| == |before|
      && after[i.value] == Entry(topic, materials)
      && forall j :: 0 <= j < |before| && j != i.value ==> after[j] == before[j]
  {
    if i.None? then Err(NotFound)
    else
      match ListOps.UpdateAt(BuildSequence(s), i.value, Entry(topic, materials))
      case Ok(es) => Ok(Store(s, es))
      case Err(e) => Err(e)
  }

  /** Removes the lecture at `i`; later lectures move up by one. The shorter
      sequence is stored even when it is empty. */
  function DeleteLecture(s: Schedule, i: int): (r: Result<Schedule>)
    ensures r.Ok? <==> 0 <= i < |BuildSequence(s)|
    ensures r.Err? ==> r.error == NotFound
    ensures r.Ok? ==>
      var before := BuildSequence(s);
      && r.value == s.(lectureSequence := r.value.lectureSequence)
      && r.value.lectureSequence.Some?
      && var stored := r.value.lectureSequence.value;
      && |stored| == |before| - 1
      && (forall j :: 0 <= j < i ==> stored[j] == before[j])
      && (forall j :: i <= j < |stored| ==> stored[j] == before[j + 1])
      && (stored != [] ==> BuildSequence(r.value) == stored)
  {
    match ListOps.DeleteAt(BuildSequence(s), i)
    case Ok(es) => Ok(Store(s, es))
    case Err(e) => Err(e)
  }

  /** Deleting the only lecture stores an empty list, which the builder treats
      as absent: the sequence is derived from the grid again. When no sequence
      was stored before, the deleted lecture therefore reappears. */
  lemma DeleteSoleLectureFallsBackToGrid(s: Schedule)
    requires |BuildSequence(s)| == 1
    ensures DeleteLecture(s, 0).Ok?
    ensures BuildSequence(DeleteLecture(s, 0).value) == Flatten(Grid(s), DayOrder(s.classDays))
    ensures !HasStoredSequence(s) ==> BuildSequence(DeleteLecture(s, 0).value) == BuildSequence(s)
  {
  }

  /** Moves the lecture at `i` one place `"up"` or `"down"`. An out-of-range
      index is reported; a move past either end stores the sequence unchanged. */
  function MoveLecture(s: Schedule, i: int, direction: string): (r: Result<Schedule>)
    ensures r.Ok? <==> 0 <= i < |BuildSequence(s)|
    ensures r.Err? ==> r.error == NotFound
    ensures r.Ok? ==>
      var before, after := BuildSequence(s), BuildSequence(r.value);
      && r.value == s.(lectureSequence := r.value.lectureSequence)
      && r.value.lectureSequence == Some(after)
      && |after| == |before|
      && multiset(after) == multiset(before)
      && (direction == "up" && i > 0 ==>
            after[i - 1] == before[i] && after[i] == before[i - 1] &&
            forall j :: 0 <= j < |before| && j != i - 1 && j != i ==> after[j] == before[j])
      && (direction == "down" && i < |before| - 1 ==>
            after[i + 1] == before[i] && after[i] == before[i + 1] &&
            forall j :: 0 <= j < |before| && j != i && j != i + 1 ==> after[j] == before[j])
      && (!(direction == "up" && i > 0) && !(direction == "down" && i < |before| - 1) ==>
            after == before)
  {
    match ListOps.Move(BuildSequence(s), i, direction)
    case Ok(es) => Ok(Store(s, es))
    case Err(e) => Err(e)
  }

  /** Removes material `m` of the lecture at `i`. A missing or out-of-range
      lecture index and an out-of-range material index are reported apart,
      and in both cases nothing is stored. */
  function DeleteMaterial(s: Schedule, i: Option<int>, m: int): (r: Result<Schedule>)
    ensures (r.Err? && r.error == NotFound) <==> !(i.Some? && 0 <= i.value < |BuildSequence(s)|)
    ensures (r.Err? && r.error == MaterialNotFound) <==>
      i.Some? && 0 <= i.value < |BuildSequence(s)| &&
      !(0 <= m < |BuildSequence(s)[i.value].materials|)
    ensures r.Err? ==> r.error == NotFound || r.error == MaterialNotFound
    ensures r.Ok? ==>
      var before, after := BuildSequence(s), BuildSequence(r.value);
      var ms := before[i.value].materials;
      && r.value == s.(lectureSequence := r.value.lectureSequence)
      && r.value.lectureSequence == Some(after)
      && |after| == |before|
      && after[i.value] == Entry(before[i.value].topic, ms[..m] + ms[m + 1..])
      && forall j :: 0 <= j < |before| && j != i.value ==> after[j] == before[j]
  {
    var es := BuildSequence(s);
    if i.None? || !(0 <= i.value < |es|) then Err(NotFound)
    else
      match ListOps.DeleteAt(es[i.value].materials, m)
      case Ok(ms) => Ok(Store(s, es[i.value := es[i.value].(materials := ms)]))
      case Err(_) => Err(MaterialNotFound)
  }
}

=== FILE: list_ops.dfy ===
/** The index-addressed list operations every editor of the dashboard shares:
    lectures, home modules, assignments, textbooks and people are all
    identified by their position in their list. */
module ListOps {
  import opened Outcomes

  predicate ValidIndex<T>(xs: seq<T>, i: int) {
    0 <= i < |xs|
  }

  /** Overwrites the item at `i` as a whole. */
  function UpdateAt<T>(xs: seq<T>, i: int, x: T): (r: Result<seq<T>>)
    ensures r.Ok? <==> ValidIndex(xs, i)
    ensures r.Err? ==> r.error == NotFound
    ensures r.Ok? ==> |r.value| == |xs| && r.value[i] == x
    ensures r.Ok? ==> forall j :: 0 <= j < |xs| && j != i ==> r.value[j] == xs[j]
  {
    if ValidIndex(xs, i) then Ok(xs[i := x]) else Err(NotFound)
  }

  /** Removes the item at `i`; later items shift down by one. */
  function DeleteAt<T>(xs: seq<T>, i: int): (r: Result<seq<T>>)
    ensures r.Ok? <==> ValidIndex(xs, i)
    ensures r.Err? ==> r.error == NotFound
    ensures r.Ok? ==> |r.value| == |xs| - 1
    ensures r.Ok? ==> forall j :: 0 <= j < i ==> r.value[j] == xs[j]
    ensures r.Ok? ==> forall j :: i <= j < |r.value| ==> r.value[j] == xs[j + 1]
    ensures r.Ok? ==> multiset(r.value) + multiset{xs[i]} == multiset(xs)
  {
    if ValidIndex(xs, i) then
      assert xs == xs[..i] + [xs[i]] + xs[i + 1..];
      Ok(xs[..i] + xs[i + 1..])
    else
      Err(NotFound)
  }

  /** Exchanges the items at `a` and `b`. */
  function Swap<T>(xs: seq<T>, a: int, b: int): (r: seq<T>)
    requires ValidIndex(xs, a) && ValidIndex(xs, b)
    ensures |r| == |xs| && r[a] == xs[b] && r[b] == xs[a]
    ensures forall j :: 0 <= j < |xs| && j != a && j != b ==> r[j] == xs[j]
    ensures multiset(r) == multiset(xs)
  {
    xs[a := xs[b]][b := xs[a]]
  }

  /** Moves the item at `i` one place `"up"` (towards the front) or `"down"`.
      An out-of-range index is not found; a move past either end, or any other
      direction, succeeds and changes nothing. */
  function Move<T>(xs: seq<T>, i: int, direction: string): (r: Result<seq<T>>)
    ensures r.Ok? <==> ValidIndex(xs, i)
    ensures r.Err? ==> r.error == NotFound
    ensures r.Ok? ==> |r.value| == |xs| && multiset(r.value) == multiset(xs)
    ensures r.Ok? && direction == "up" && i > 0 ==>
      r.value[i - 1] == xs[i] && r.value[i] == xs[i - 1] &&
      forall j :: 0 <= j < |xs| && j != i - 1 && j != i ==> r.value[j] == xs[j]
    ensures r.Ok? && direction == "down" && i < |xs| - 1 ==>
      r.value[i + 1] == xs[i] && r.value[i] == xs[i + 1] &&
      forall j :: 0 <= j < |xs| && j != i && j != i + 1 ==> r.value[j] == xs[j]
    ensures r.Ok? && !(direction == "up" && i > 0) && !(direction == "down" && i < |xs| - 1) ==>
      r.value == xs
  {
    if !ValidIndex(xs, i) then Err(NotFound)
    else if direction == "up" && i > 0 then Ok(Swap(xs, i - 1, i))
    else if direction == "down" && i < |xs| - 1 then Ok(Swap(xs, i, i + 1))
    else Ok(xs)
  }

  /** Moving an item up and then moving it back down restores the list. */
  lemma MoveUpThenDown<T>(xs: seq<T>, i: int)
    requires 0 < i < |xs|
    ensures Move(xs, i, "up").Ok?
    ensures Move(Move(xs, i, "up").value, i - 1, "down") == Ok(xs)
  {
    var ys := Move(xs, i, "up").value;
    var zs := Move(ys, i - 1, "down").value;
    assert forall j :: 0 <= j < |xs| ==> zs[j] == xs[j];
    assert zs == xs;
  }

  /** Deleting an item and writing it back at its old position restores the list. */
  lemma DeleteAtThenReinsert<T>(xs: seq<T>, i: int)
    requires ValidIndex(xs, i)
    ensures DeleteAt(xs, i).Ok?
    ensures DeleteAt(xs, i).value[..i] + [xs[i]] + DeleteAt(xs, i).value[i..] == xs
  {
    var ys := DeleteAt(xs, i).value;
    var zs := ys[..i] + [xs[i]] + ys[i..];
    assert |zs| == |xs|;
    forall j | 0 <= j < |xs|
      ensures zs[j] == xs[j]
    {
      if j > i {
        assert zs[j] == ys[j - 1];
      }
    }
  }
}

=== FILE: outcomes.dfy ===
/** Optional values and the soft failures the dashboard reports to its caller
    instead of changing the schedule document. */
module Outcomes {

  /** A value that may be absent, as a key that may be missing from a document. */
  datatype Option<T> = None | Some(value: T) {

    /** The value, or `default` when absent (Python's `dict.get(key, default)`). */
    function GetOr(default: T): T {
      match this
      case Some(v) => v
      case None => default
    }
  }

  /** The outcomes the handlers report without touching the document. */
  datatype Error =
    | NotFound               // the addressed item index is out of range
    | MaterialNotFound       // the lecture exists but the material index is out of range
    | NoClassDaysConfigured  // a bulk grid operation needs at least one class day

  /** Either the new value of an operation or the soft failure it reported. */
  datatype Result<T> = Ok(value: T) | Err(error: Error)
}

=== FILE: sequence_builder.dfy ===
/** Derivation of the flat lecture sequence from the schedule document: a
    stored non-empty sequence is authoritative, otherwise the grid is flattened
    week by week in stored order and, within a week, in class-day order. */
module SequenceBuilder {
  import opened Outcomes
  import opened CourseData

  /** The configured day names in configuration order, skipping empty names. */
  function NamedDays(classDays: seq<ClassDay>): (names: seq<string>)
    ensures forall d :: d in names <==> d != "" && d in DaySet(classDays)
    ensures |names| <= |classDays|
  {
    if classDays == [] then []
    else
      assert forall d :: d in DaySet(classDays) <==> d == classDays[0].day || d in DaySet(classDays[1..]) by {
        assert DayNames(classDays) == [classDays[0].day] + DayNames(classDays[1..]);
      }
      if classDays[0].day != "" then [classDays[0].day] + NamedDays(classDays[1..])
      else NamedDays(classDays[1..])
  }

  /** Naming is read off the class days one by one, in configuration order. */
  lemma {:induction false} NamedDaysAppend(a: seq<ClassDay>, b: seq<ClassDay>)
    ensures NamedDays(a + b) == NamedDays(a) + NamedDays(b)
  {
    if a == [] {
      assert a + b == b;
    } else {
      assert (a + b)[1..] == a[1..] + b;
      NamedDaysAppend(a[1..], b);
    }
  }

  /** A single class day contributes its name exactly when the name is non-empty. */
  lemma NamedDaysSingle(c: ClassDay)
    ensures NamedDays([c]) == if c.day != "" then [c.day] else []
  {
    assert [c][1..] == [];
  }

  /** With class days Tuesday then Thursday, a week holding both contributes
      its Tuesday lecture before its Thursday lecture. */
  lemma DerivationOrderExample(a: string, b: string)
    ensures var classDays := [ClassDay("tuesday", "10:00"), ClassDay("thursday", "10:00")];
      var w := Week(1, map["thursday" := Content(Some(b), None), "tuesday" := Content(Some(a), None)]);
      DayOrder(classDays) == ["tuesday", "thursday"] &&
      BuildSequence(Schedule("", "", classDays, [], Some([w]), None)) == [Entry(a, []), Entry(b, [])]
  {
    var classDays := [ClassDay("tuesday", "10:00"), ClassDay("thursday", "10:00")];
    assert classDays == [classDays[0]] + [classDays[1]];
    NamedDaysAppend([classDays[0]], [classDays[1]]);
    NamedDaysSingle(classDays[0]);
    NamedDaysSingle(classDays[1]);
    var order := ["tuesday", "thursday"];
    var w := Week(1, map["thursday" := Content(Some(b), None), "tuesday" := Content(Some(a), None)]);
    assert order[1..] == ["thursday"] && order[1..][1..] == [];
    assert WeekEntries(w, order) == [Entry(a, []), Entry(b, [])];
    assert Flatten([w], order) == WeekEntries(w, order) + Flatten([], order);
  }

  /** The order in which each week's days are visited: the named class days,
      or Monday to Sunday when none is named. */
  function DayOrder(classDays: seq<ClassDay>): (order: seq<string>)
    ensures order != []
    ensures forall d :: d in order ==> d != ""
    ensures (exists c :: c in classDays && c.day != "") ==>
      forall d :: d in order <==> d != "" && d in DaySet(classDays)
    ensures NamedDays(classDays) == [] ==> order == CanonicalWeek
    ensures NamedDays(classDays) != [] ==> order == NamedDays(classDays)
  {
    var named := NamedDays(classDays);
    if named == [] then
      assert forall d :: d in CanonicalWeek ==> d != "";
      forall c | c in classDays ensures c.day == "" {
        var i :| 0 <= i < |classDays| && classDays[i] == c;
        assert DayNames(classDays)[i] == c.day;
        assert c.day in DaySet(classDays) && c.day !in named;
      }
      CanonicalWeek
    else
      named
  }

  /** How many days of `order` carry truthy content in week `w`. */
  function PresentCount(w: Week, order: seq<string>): nat {
    if order == [] then 0
    else (if Present(w, order[0]) then 1 else 0) + PresentCount(w, order[1..])
  }

  /** How many (week, day) slots of the grid carry truthy content. */
  function GridCount(weeks: seq<Week>, order: seq<string>): nat {
    if weeks == [] then 0 else PresentCount(weeks[0], order) + GridCount(weeks[1..], order)
  }

  /** The entries one week contributes, visiting its days in `order`. */
  function WeekEntries(w: Week, order: seq<string>): (es: seq<Entry>)
    ensures |es| == PresentCount(w, order)
  {
    if order == [] then []
    else if Present(w, order[0]) then [ToEntry(w.days[order[0]])] + WeekEntries(w, order[1..])
    else WeekEntries(w, order[1..])
  }

  /** The entries of all weeks, in stored week order. */
  function Flatten(weeks: seq<Week>, order: seq<string>): (es: seq<Entry>)
    ensures |es| == GridCount(weeks, order)
  {
    if weeks == [] then [] else WeekEntries(weeks[0], order) + Flatten(weeks[1..], order)
  }

  /** A week without days contributes no entry. */
  lemma {:induction false} WeekEntriesNoDays(w: Week, order: seq<string>)
    requires |w.days| == 0
    ensures WeekEntries(w, order) == []
  {
    if order != [] {
      assert !Present(w, order[0]);
      WeekEntriesNoDays(w, order[1..]);
    }
  }

  /** Dropping the empty weeks does not change the flattened sequence. */
  lemma {:induction false} FlattenDropEmpty(weeks: seq<Week>, order: seq<string>)
    ensures Flatten(DropEmptyWeeks(weeks), order) == Flatten(weeks, order)
  {
    if weeks != [] {
      FlattenDropEmpty(weeks[1..], order);
      if |weeks[0].days| > 0 {
        var rest := DropEmptyWeeks(weeks[1..]);
        assert ([weeks[0]] + rest)[1..] == rest;
      } else {
        WeekEntriesNoDays(weeks[0], order);
      }
    }
  }

  /** A non-empty flat sequence is stored; an empty stored list is falsy and
      does not count. */
  predicate HasStoredSequence(s: Schedule) {
    s.lectureSequence.Some? && s.lectureSequence.value != []
  }

  /** `build_lecture_sequence`: the stored sequence when it is non-empty,
      otherwise the flattened grid. */
  function BuildSequence(s: Schedule): (es: seq<Entry>)
    ensures HasStoredSequence(s) ==>
      es == s.lectureSequence.value
    ensures !HasStoredSequence(s) ==>
      |es| == GridCount(Grid(s), DayOrder(s.classDays))
    ensures !HasStoredSequence(s) && Grid(s) == [] ==>
      es == []
  {
    if HasStoredSequence(s) then s.lectureSequence.value
    else Flatten(Grid(s), DayOrder(s.classDays))
  }

  /** The read path of the schedule page: when no non-empty sequence is stored
      and the grid is non-empty, the derived sequence is written back. */
  function Materialize(s: Schedule): (r: Schedule)
    ensures BuildSequence(r) == BuildSequence(s)
    ensures r.lectures == s.lectures && r.classDays == s.classDays && r.holidays == s.holidays
    ensures r.semesterStart == s.semesterStart && r.semesterEnd == s.semesterEnd
    ensures Grid(s) != [] ==> r.lectureSequence.Some?
    ensures Grid(s) != [] && BuildSequence(s) != [] ==> HasStoredSequence(r)
    ensures HasStoredSequence(s) || Grid(s) == [] ==> r == s
  {
    if !HasStoredSequence(s) && Grid(s) != [] then
      s.(lectureSequence := Some(BuildSequence(s)))
    else
      s
  }

  /** Writing the derived sequence back a second time changes nothing. */
  lemma MaterializeIdempotent(s: Schedule)
    ensures Materialize(Materialize(s)) == Materialize(s)
  {
  }

  /** Storing the sequence the builder returned and building again yields the
      same sequence, whether it was stored or derived. */
  lemma PersistRoundTrip(s: Schedule)
    ensures BuildSequence(s.(lectureSequence := Some(BuildSequence(s)))) == BuildSequence(s)
  {
  }

  lemma {:induction false} PresentCountAppend(w: Week, a: seq<string>, b: seq<string>)
    ensures PresentCount(w, a + b) == PresentCount(w, a) + PresentCount(w, b)
  {
    if a == [] {
      assert a + b == b;
    } else {
      assert (a + b)[1..] == a[1..] + b;
      PresentCountAppend(w, a[1..], b);
    }
  }

  lemma {:induction false} WeekEntriesAppend(w: Week, a: seq<string>, b: seq<string>)
    ensures WeekEntries(w, a + b) == WeekEntries(w, a) + WeekEntries(w, b)
  {
    if a == [] {
      assert a + b == b;
    } else {
      assert (a + b)[1..] == a[1..] + b;
      WeekEntriesAppend(w, a[1..], b);
    }
  }

  lemma {:induction false} GridCountAppend(a: seq<Week>, b: seq<Week>, order: seq<string>)
    ensures GridCount(a + b, order) == GridCount(a, order) + GridCount(b, order)
  {
    if a == [] {
      assert a + b == b;
    } else {
      assert (a + b)[1..] == a[1..] + b;
      GridCountAppend(a[1..], b, order);
    }
  }

  /** Flattening distributes over concatenation of grids. */
  lemma {:induction false} FlattenAppend(a: seq<Week>, b: seq<Week>, order: seq<string>)
    ensures Flatten(a + b, order) == Flatten(a, order) + Flatten(b, order)
  {
    if a == [] {
      assert a + b == b;
    } else {
      assert (a + b)[1..] == a[1..] + b;
      FlattenAppend(a[1..], b, order);
    }
  }

  /** The number of truthy slots that precede slot (i, j) in week-then-day order. */
  function SlotsBefore(weeks: seq<Week>, order: seq<string>, i: int, j: int): nat
    requires 0 <= i < |weeks| && 0 <= j <= |order|
  {
    GridCount(weeks[..i], order) + PresentCount(weeks[i], order[..j])
  }

  /** The entry of the truthy slot (week i, day order[j]) sits in the flattened
      sequence right after the entries of all truthy slots before it. */
  lemma FlattenPosition(weeks: seq<Week>, order: seq<string>, i: int, j: int)
    requires 0 <= i < |weeks| && 0 <= j < |order|
    requires Present(weeks[i], order[j])
    ensures SlotsBefore(weeks, order, i, j) < |Flatten(weeks, order)|
    ensures Flatten(weeks, order)[SlotsBefore(weeks, order, i, j)] == ToEntry(weeks[i].days[order[j]])
  {
    var w := weeks[i];
    assert weeks == weeks[..i] + ([w] + weeks[i + 1..]);
    FlattenAppend(weeks[..i], [w] + weeks[i + 1..], order);
    assert ([w] + weeks[i + 1..])[1..] == weeks[i + 1..];
    assert order == order[..j] + order[j..];
    WeekEntriesAppend(w, order[..j], order[j..]);
    var tail := WeekEntries(w, order[j..]);
    assert tail == [ToEntry(w.days[order[j]])] + WeekEntries(w, order[j + 1..]) by {
      assert order[j..][0] == order[j];
      assert order[j..][1..] == order[j + 1..];
    }
  }

  /** Distinct truthy slots occupy positions in week-then-day order. */
  lemma SlotsOrdered(weeks: seq<Week>, order: seq<string>, i: int, j: int, i2: int, j2: int)
    requires 0 <= i < |weeks| && 0 <= j < |order| && Present(weeks[i], order[j])
    requires 0 <= i2 < |weeks| && 0 <= j2 < |order| && Present(weeks[i2], order[j2])
    requires i < i2 || (i == i2 && j < j2)
    ensures SlotsBefore(weeks, order, i, j) < SlotsBefore(weeks, order, i2, j2)
  {
    var w := weeks[i];
    assert order[..j + 1] == order[..j] + [order[j]];
    PresentCountAppend(w, order[..j], [order[j]]);
    assert PresentCount(w, [order[j]]) == 1;
    if i == i2 {
      assert order[..j2] == order[..j + 1] + order[j + 1..j2];
      PresentCountAppend(w, order[..j + 1], order[j + 1..j2]);
    } else {
      assert order == order[..j + 1] + order[j + 1..];
      PresentCountAppend(w, order[..j + 1], order[j + 1..]);
      assert weeks[..i2] == weeks[..i] + [w] + weeks[i + 1..i2];
      GridCountAppend(weeks[..i] + [w], weeks[i + 1..i2], order);
      GridCountAppend(weeks[..i], [w], order);
      assert GridCount([w], order) == PresentCount(w, order);
    }
  }
}

=== FILE: week_order.dfy ===
/** The stable ascending sort of the grid by week number that generating weeks
    applies (Python's `list.sort(key=...)` is stable). */
module WeekOrder {
  import opened CourseData

  predicate SortedByWeek(weeks: seq<Week>) {
    forall i, j :: 0 <= i < j < |weeks| ==> weeks[i].week <= weeks[j].week
  }

  /** The records of `weeks` whose number is `n`, in their relative order. */
  function WithNumber(weeks: seq<Week>, n: int): seq<Week> {
    if weeks == [] then []
    else (if weeks[0].week == n then [weeks[0]] else []) + WithNumber(weeks[1..], n)
  }

  lemma {:induction false} WithNumberAppend(a: seq<Week>, b: seq<Week>, n: int)
    ensures WithNumber(a + b, n) == WithNumber(a, n) + WithNumber(b, n)
  {
    if a == [] {
      assert a + b == b;
    } else {
      var head := if a[0].week == n then [a[0]] else [];
      assert (a + b)[0] == a[0] && (a + b)[1..] == a[1..] + b;
      assert WithNumber(a + b, n) == head + WithNumber(a[1..] + b, n);
      WithNumberAppend(a[1..], b, n);
      assert head + (WithNumber(a[1..], n) + WithNumber(b, n)) == (head + WithNumber(a[1..], n)) + WithNumber(b, n);
    }
  }

  /** A number no record carries selects nothing. */
  lemma {:induction false} WithNumberAbsent(weeks: seq<Week>, n: int)
    requires n !in WeekNumbers(weeks)
    ensures WithNumber(weeks, n) == []
  {
    if weeks != [] {
      assert weeks[0] in weeks;
      assert WeekNumbers(weeks[1..]) <= WeekNumbers(weeks) by {
        forall w | w in weeks[1..] ensures w in weeks { }
      }
      WithNumberAbsent(weeks[1..], n);
    }
  }

  /** Inserts `x` before the first record whose number is not smaller. */
  function InsertByWeek(x: Week, ys: seq<Week>): (r: seq<Week>)
    ensures |r| == |ys| + 1
    ensures multiset(r) == multiset(ys) + multiset{x}
  {
    if ys == [] || x.week <= ys[0].week then [x] + ys
    else
      assert ys == [ys[0]] + ys[1..];
      [ys[0]] + InsertByWeek(x, ys[1..])
  }

  /** Every record of the grid has a number of at least `b`. */
  predicate AtLeast(weeks: seq<Week>, b: int) {
    forall k :: 0 <= k < |weeks| ==> b <= weeks[k].week
  }

  lemma {:induction false} InsertSorted(x: Week, ys: seq<Week>, b: int)
    requires SortedByWeek(ys)
    ensures SortedByWeek(InsertByWeek(x, ys))
    ensures AtLeast(ys, b) && b <= x.week ==> AtLeast(InsertByWeek(x, ys), b)
  {
    if ys == [] || x.week <= ys[0].week {
    } else {
      var rest := InsertByWeek(x, ys[1..]);
      InsertSorted(x, ys[1..], ys[0].week);
      InsertSorted(x, ys[1..], b);
      assert AtLeast(ys[1..], ys[0].week);
      assert AtLeast(rest, ys[0].week);
    }
  }

  /** The grid sorted by week number, equal numbers kept in stored order. */
  function SortByWeek(weeks: seq<Week>): (r: seq<Week>)
    ensures |r| == |weeks|
    ensures multiset(r) == multiset(weeks)
    ensures SortedByWeek(r)
  {
    if weeks == [] then []
    else
      assert weeks == [weeks[0]] + weeks[1..];
      InsertSorted(weeks[0], SortByWeek(weeks[1..]), weeks[0].week);
      InsertByWeek(weeks[0], SortByWeek(weeks[1..]))
  }

  lemma {:induction false} WithNumberInsert(x: Week, ys: seq<Week>, n: int)
    requires SortedByWeek(ys)
    ensures WithNumber(InsertByWeek(x, ys), n) ==
      (if x.week == n then [x] else []) + WithNumber(ys, n)
  {
    if ys == [] || x.week <= ys[0].week {
      assert ([x] + ys)[1..] == ys;
    } else {
      var rest := InsertByWeek(x, ys[1..]);
      assert ([ys[0]] + rest)[1..] == rest;
      WithNumberInsert(x, ys[1..], n);
      if x.week == n {
        // every record after the insertion point has a number above `n`,
        // so none of them precedes `x` among the records numbered `n`
        assert ys[0].week < n;
      }
    }
  }

  /** Stability: among records with the same week number the sort keeps the
      stored order. */
  lemma {:induction false} SortByWeekStable(weeks: seq<Week>, n: int)
    ensures WithNumber(SortByWeek(weeks), n) == WithNumber(weeks, n)
  {
    if weeks != [] {
      SortByWeekStable(weeks[1..], n);
      WithNumberInsert(weeks[0], SortByWeek(weeks[1..]), n);
    }
  }

  /** Sorting a grid that is already sorted leaves it as it is. */
  lemma {:induction false} SortSortedIsIdentity(weeks: seq<Week>)
    requires SortedByWeek(weeks)
    ensures SortByWeek(weeks) == weeks
  {
    if weeks != [] {
      assert SortedByWeek(weeks[1..]);
      SortSortedIsIdentity(weeks[1..]);
    }
  }
}
